=== FILE: README.md ===
# Terminal-pnl trading journal, modelled in Dafny

`pnl_gui.py` reads a trading journal from a CSV or Excel file. It shows one table line per trade and then prints summary statistics. This project models the three pieces of `TradingJournal` that hold its logic:

- **Loading** (`load_data`). The lower-cased file extension picks a reader, or the load is refused. A `date` column, when present, is converted for all rows or none. Every failure the `try` catches leaves an empty table plus a message.
- **The table** (the row loop of `display_trades`). Each row's PnL text is stripped, loses every `$` and `,`, and is read as a number. The row is styled profit when that number is at least zero. A row whose cells cannot be read, or whose PnL does not parse, is skipped, and the loop moves to the next row.
- **The summary** (`display_summary`). The whole PnL column is cleaned and converted at once, so one bad cell cancels every statistic. Otherwise the summary prints:
  - the trade count;
  - the profitable count (strictly above zero);
  - the losing count (the rest);
  - the win rate, favourable from 50% up;
  - the total P&L, favourable from zero up.

Money is an exact `real`. Python's `float()` is modelled over a restricted decimal grammar: an optional sign, digits, and an optional point with digits, with surrounding ASCII whitespace ignored. The two paths do not skip the same whitespace. `str.strip()` also removes the four ASCII information separators U+001C–U+001F; `float()` does not, so it rejects a text that holds one. That grammar is a strict subset of what `float()` accepts. Table cells are strings, or converted dates (as `pd.to_datetime` leaves them in the `date` column). The file readers (`pd.read_csv`, `pd.read_excel`) and the date parser (`pd.to_datetime`, taken value by value) are parameters: the model sees only what they return.

Modules, in dependency order:

- `Options` holds the option type.
- `Text` covers `str.strip()` and ASCII lower-casing.
- `Decimal` is the number grammar, with its round trip.
- `Currency` is the `$`/`,` deletion and the amount parse shared by both paths.
- `DataFrames` holds cells, rows and the table.
- `Lists` holds the two sequence combinators. Skip-on-failure serves the table; all-or-nothing serves the column conversions.
- `Loader`, `Display` and `Summary` are the three methods.
- `Journal` puts them together and proves how the table and the summary relate.
- `Scenarios` works through concrete journals.

## Model

| member | source | states |
|---|---|---|
| Text.Trim | pnl_gui.py:73 | `strip()` returns a piece of the text with no whitespace at either end; whitespace here is every ASCII character `str.isspace()` accepts, the information separators U+001C–U+001F included |
| Text.TrimNoSeparator | pnl_gui.py:73 | stripping a text that holds no information separator yields a text that holds none |
| Text.TrimSplits | pnl_gui.py:73 | the text is the stripped part with pure whitespace on each side of it, in place |
| Text.NonSpaceSurvivesTrim | pnl_gui.py:73 | `strip()` never removes a character that is not whitespace |
| Text.TrimIgnoresPadding | pnl_gui.py:73 | adding whitespace around a text does not change what `strip()` returns |
| Text.TrimKeepsTrimmed | pnl_gui.py:73 | a text with no whitespace at either end is left alone by `strip()` |
| Text.Lower | pnl_gui.py:27 | lower-casing keeps the length, leaves no upper-case ASCII letter, keeps every other character in place, and turns each upper-case letter into its lower-case partner |
| Text.LowerIdempotent | pnl_gui.py:27 | lower-casing twice is lower-casing once |
| Loader.FormatOfIgnoresCase | pnl_gui.py:27 | two extensions that differ only in letter case pick the same reader |
| Loader.CsvExtensions | pnl_gui.py:27-31 | `.csv` and `.CSV` both select the CSV reader |
| Loader.ExcelExtensions | pnl_gui.py:27-33 | `.xlsx`, `.xls` and `.XLS` all select the Excel reader |
| Loader.RefusedExtensions | pnl_gui.py:27-35 | `.txt` and a missing extension select no reader |
| Loader.ConvertCell | pnl_gui.py:39 | a date passes through; text fails exactly when the date parser fails on it, and otherwise becomes exactly the date the parser produced |
| Loader.ConvertRow | pnl_gui.py:38-39 | converting a row changes only its `date` cell, which becomes the converted old cell; it keeps its columns and fails exactly when that cell fails |
| Loader.Load | pnl_gui.py:25-46 | every failure leaves the empty table; an unsupported extension is refused without reading; a missing file is reported exactly when the chosen reader finds no file; a reader's error text is passed on; success exactly when reading and every date conversion succeed; on success the reader's rows are kept in order, none dropped, every cell but the `date` cell is unchanged, and each `date` cell holds the parser's date for it |
| Loader.ConvertDates | pnl_gui.py:39 | converting the `date` column succeeds exactly when every row converts; the result then has one converted row per row, in place |
| Loader.LoadKeepsWellFormed | pnl_gui.py:29-46 | if the readers return well-formed tables, so does loading, on every path |
| Loader.OneBadDateEmptiesTable | pnl_gui.py:38-46 | a single `date` value that does not parse empties the whole table |
| Decimal.DigitsValue | pnl_gui.py:74 | the value of n decimal digits is below 10^n |
| Decimal.ParseMantissa | pnl_gui.py:74 | an accepted unsigned mantissa is non-empty, made of digits and points, and has a value of zero or more |
| Decimal.ParseDecimal | pnl_gui.py:74 | an accepted number is non-empty and spelled only with digits, signs and points; a negative value needs a leading `-` |
| Decimal.ParsedMantissa | pnl_gui.py:74 | every accepted mantissa is whole digits, then a point and fraction digits when a point is written, and reads as their value |
| Decimal.ParseWritten | pnl_gui.py:74 | every text in the grammar's shape is accepted with its literal's value, canonical or not: a `+` sign and a point with no digits after it included |
| Decimal.PlusAndTrailingPoint | pnl_gui.py:74 | "+5" and "5." both read as 5 |
| Decimal.ParsedLiteral | pnl_gui.py:74 | every accepted number is an optional sign followed by a literal's digits in that shape, and reads as that literal's value; so "1.2.3" and "5-" are refused |
| Decimal.MantissaRoundTrip | pnl_gui.py:74 | reading the spelling of whole digits, a point and fraction digits gives back their value |
| Decimal.ParseSpelling | pnl_gui.py:74 | reading the canonical spelling of any signed decimal literal gives back its value |
| Decimal.SpellingIsTrimmed | pnl_gui.py:74 | a canonical spelling has no whitespace at either end |
| Decimal.ParseNumberSpelling | pnl_gui.py:74 | `float()` of the canonical spelling of a literal gives back its value |
| Currency.Remove | pnl_gui.py:74 | deleting a character leaves no occurrence of it and never lengthens the text |
| Currency.RemoveCounts | pnl_gui.py:74 | deletion takes away exactly the occurrences of that character; every other character keeps its count |
| Currency.RemoveConcat | pnl_gui.py:74 | deletion works piecewise over concatenation, so kept characters keep their order |
| Currency.RemoveAbsent | pnl_gui.py:74 | deleting a character that does not occur changes nothing |
| Currency.StripCurrency | pnl_gui.py:74 | the cleaned PnL text holds no `$` and no `,` |
| Currency.StripCurrencyCounts | pnl_gui.py:74 | cleaning takes away exactly the `$` and `,` characters; every other character keeps its count |
| Currency.StripCurrencyConcat | pnl_gui.py:74 | cleaning works piecewise, so surviving characters keep their order |
| Currency.StripCurrencyFixedPoints | pnl_gui.py:74 | cleaning leaves a text unchanged exactly when it has no `$` and no `,` |
| Currency.StripCurrencyIdempotent | pnl_gui.py:107 | cleaning twice is cleaning once |
| Currency.StripCurrencyPadded | pnl_gui.py:73-74 | cleaning leaves whitespace padding where it was |
| Currency.RowParseMatchesColumnParse | pnl_gui.py:73-74 | on a text without information separators, stripping before cleaning and parsing gives the same result as not stripping, as at line 107 |
| Currency.SeparatorFailsColumnParse | pnl_gui.py:107 | a text holding an information separator never reads as a number without stripping, because `float()` does not skip separators |
| Currency.ColumnParseImpliesRowParse | pnl_gui.py:73-74 | whatever the column path reads, the row path reads as the same number, for every text |
| Currency.SeparatorFivePaths | pnl_gui.py:73-74 | "\x1c5" strips to "5", which reads as 5, while "\x1c5" itself does not read as a number |
| Currency.DecoratedSpelling | pnl_gui.py:74 | any text that cleans to the canonical spelling of a number reads as that number |
| Currency.StripCurrencyKeeps | pnl_gui.py:74 | every character that is not `$` or `,` survives cleaning |
| Currency.ForeignCharacterRejected | pnl_gui.py:74 | a character that is not a numeral, a currency mark or whitespace makes the PnL unreadable |
| Currency.ThousandsSeparated | pnl_gui.py:74 | a leading `$` and a thousands comma are ignored: `$` w1 `,` w2 `.` f reads as the number w1w2.f |
| Lists.FilterMap | pnl_gui.py:70-88 | the skip-on-failure walk never yields more items than it is given |
| Lists.FilterMapConcat | pnl_gui.py:70-88 | walking two row runs one after the other is walking each and concatenating |
| Lists.FilterMapSelects | pnl_gui.py:70-88 | the output is the successes, picked at strictly increasing positions; every position not picked failed |
| Lists.AllOrNothing | pnl_gui.py:107 | the column conversion succeeds exactly when every element converts; it then has one value per element, in place |
| Lists.AllOrNothingPointwise | pnl_gui.py:107 | when every element converts, the result is exactly the converted elements |
| Lists.CollectAll | pnl_gui.py:107 | the loop form of all-or-nothing agrees with it and names the first element that fails |
| Display.StyleOf | pnl_gui.py:75 | a row is styled profit exactly when its PnL is zero or more |
| Display.DateText | pnl_gui.py:77 | the date text exists exactly when the row has a converted `date` cell, and is that date's ISO day |
| Display.RenderRow | pnl_gui.py:71-85 | a row is shown exactly when every cell it reads is there, the date is a date, and the PnL parses; its style is profit exactly when the PnL is zero or more; its PnL is shown as written, only stripped |
| Display.RenderedCells | pnl_gui.py:76-84 | a shown row carries its date as the ISO day, its session, quantity, risk:reward and comments as text, and its percentage change followed by "%" |
| Display.DisplayTradesConcat | pnl_gui.py:70-88 | rows are rendered independently: the table of joined row runs is the joined tables |
| Display.SkippedRowLeavesOthers | pnl_gui.py:86-88 | inserting a failing row anywhere leaves the table unchanged |
| Display.KeptRowInPlace | pnl_gui.py:77-85 | a row that renders appears exactly at its own position, between the rows before and after it |
| Display.DisplayTradesSelects | pnl_gui.py:70-88 | the table holds the rendered rows in increasing row order, at most as many as were loaded; every row left out failed |
| Display.RenderTable | pnl_gui.py:70-88 | the loop's table is the rendered rows, and shown plus skipped equals the number of rows |
| Summary.ColumnCell | pnl_gui.py:107 | a PnL cell converts only if the column exists and holds text, and then as the cleaned amount |
| Summary.ColumnValues | pnl_gui.py:107 | the column converts exactly when every cell does, and then gives one value per row, in row order |
| Summary.CountProfitable | pnl_gui.py:108 | the profitable count never exceeds the number of values |
| Summary.CountsPartition | pnl_gui.py:108-113 | profitable (above zero) plus non-positive values make up all values |
| Summary.WinStyle | pnl_gui.py:117 | the win rate is favourable exactly when it is 50 or more |
| Summary.WinRateThreshold | pnl_gui.py:116-117 | the win rate lies in 0..100 and reaches 50 exactly when at least half the trades are profitable |
| Summary.WinRateValue | pnl_gui.py:116 | the win rate times the trade count is 100 times the profitable count |
| Summary.Statistics | pnl_gui.py:106-118 | the statistics keep the given counts and total and are consistent (`Stats.Consistent`): the losing count is total minus profitable; the rates exist exactly when there are trades, so there is no division by zero; the win rate is the profitable share in percent, so within 0..100, and is favourable exactly when at least half the trades win; the total is favourable exactly when it is zero or more |
| Summary.StatsOf | pnl_gui.py:106-118 | the statistics of a converted column count its values, count the profitable ones (above zero) and the losing ones (at or below zero), total it, and are consistent |
| Summary.Summarise | pnl_gui.py:104-120 | no summary exactly for an empty table; the statistics fail exactly when some PnL cell does not convert; otherwise the total is the loaded row count, the rates are present, and all statistics are consistent, the win rate being the profitable share in percent |
| Summary.SummaryCounts | pnl_gui.py:106-118 | profitable counts values strictly above zero, losing counts the others, the total P&L is the sum of the converted column, and the win rate is the profitable count out of the loaded rows, in percent |
| Summary.CountAndSum | pnl_gui.py:108-118 | the one-pass loop computes the profitable count and the sum |
| Summary.SummariseLoop | pnl_gui.py:104-120 | the loop form agrees with the summary, and on failure names the first PnL cell that did not convert |
| Journal.ShowJournal | pnl_gui.py:50-100 | "no trading data" exactly for an empty table; otherwise the screen is the loop's rendered rows followed by the summary of the whole table, whose own emptiness check never fires, and the table is no longer than the rows |
| Journal.Run | pnl_gui.py:21-23 | a failed load, or an unsupported extension, shows only "no trading data"; otherwise the loaded table is shown: "no trading data" exactly when it is empty, else its rendered rows and its summary |
| Journal.RowAndColumnAgree | pnl_gui.py:73-74 | for a text PnL cell the row path reads every number the column path at line 107 reads, the same; without information separators the two agree outright |
| Journal.SeparatorShowsRowButCancelsSummary | pnl_gui.py:70-120 | a PnL of "\x1c5" is shown in the table as 5 while the summary is cancelled |
| Journal.SeparatorRowShown | pnl_gui.py:71-85 | a row whose PnL is "\x1c5" is shown, with "5" as its PnL |
| Journal.TotalIncludesSkippedRows | pnl_gui.py:106 | the summary's total counts every loaded row, including rows the table skipped |
| Journal.BadPnlCancelsSummary | pnl_gui.py:107-120 | one PnL text that does not parse cancels the whole summary |
| Journal.BadPnlRowFails | pnl_gui.py:74-88 | a PnL text without information separators that does not parse makes its own row fail in the table |
| Journal.BadPnlSkipsRowButCancelsSummary | pnl_gui.py:70-120 | one bad PnL text without information separators drops just its row from the table but cancels all statistics |
| Journal.NonPositiveCounted | pnl_gui.py:108-113 | a value at or below zero is counted as non-profitable |
| Journal.ZeroPnlIsProfitRowButLosingTrade | pnl_gui.py:75-113 | a zero PnL row is styled profit in the table yet counted as a losing trade in the summary |
| Scenarios.NegativeAmount | pnl_gui.py:74 | "-$50" reads as -50 |
| Scenarios.WordAmount | pnl_gui.py:74 | "abc" does not read as a number |
| Scenarios.HundredAmount | pnl_gui.py:74 | "$100" reads as 100 |
| Scenarios.ZeroAmount | pnl_gui.py:74 | "$0" reads as 0 |
| Scenarios.ThreeTradeColumn | pnl_gui.py:107 | the PnL column "$100", "-$50", "$0" converts to 100, -50, 0 |
| Scenarios.ThreeTradeStats | pnl_gui.py:106-118 | 100, -50 and 0 give 3 trades, 1 profitable, 2 losing, an unfavourable win rate of 100/3, and a favourable total of 50 |
| Scenarios.ThreeTradeJournal | pnl_gui.py:104-118 | the summary of that three-trade journal is exactly those statistics |

## Left out

- Terminal rendering is not modelled: rich's console, theme, table construction, markup strings and the `:.2f` formatting (pnl_gui.py:1-18, 55-67, 94-97, 110-118). A displayed row keeps the text of its cells and its style (`Display.RenderedCells`); the summary keeps its numbers and styles.
- Warnings that raise are not modelled. The warnings at pnl_gui.py:42, 45, 87 and 120 are rich markup strings with a file path or exception text put inside them, and the one at line 87 runs in an `except` block outside any `try`. A path, a parse error or a cell text holding a rich closing tag such as `[/]` therefore makes `console.print` raise `MarkupError`, and the program stops with a traceback: for a PnL cell `"[/]"`, line 87 raises, so neither the table nor the summary appears. No member models this. The model treats every warning as printed, so `Journal.ShowJournal` shows such a journal as a table without that row and a failed summary. The journal evidently means every error to be non-fatal, so this is a defect of the program rather than a behaviour it promises.
- Screen clearing (`os.system`, pnl_gui.py:91) is a shell side effect and is not modelled.
- The readers `pd.read_csv` / `pd.read_excel` and `pd.to_datetime` are parameters that return an outcome. `pd.to_datetime` is taken as a parser of one value at a time. `strftime('%Y-%m-%d')` is the date's stored ISO text.
- pandas dtype inference is not modelled. Cells are text, or converted dates. A PnL column that pandas reads as numbers has no `.str` accessor, so in the program its summary always fails. The model cannot express that case.
- NaN and NaT cells are not modelled.
- Python's full `float()` grammar is not modelled: exponents, `inf`/`nan`, digit-group underscores, non-ASCII digits and non-ASCII whitespace are out. So are IEEE rounding in `float()` and in `sum()`, and floating-point division in the win rate. Money and rates are exact reals.
- `str.replace('$', '')` and `str.replace(',', '')` are literal replacements under every pandas release. Before pandas 2.0 a one-character pattern was taken literally even with `regex=True`; from 2.0 on, `regex=False` is the default.
- `os.path.splitext` is not modelled, so dot-files and multiple dots are out. The model dispatches on the extension it returns. Lower-casing covers ASCII letters only, not Unicode case mapping.
- Text.Trim: strips the ASCII whitespace of `str.isspace()` only (space, tab, line feed, vertical tab, form feed, carriage return and U+001C–U+001F), not Unicode spaces such as U+00A0 or U+2028. `float()` skips those too, so leaving them out treats both paths alike.
- Currency.RowParseMatchesColumnParse: holds only for texts without U+001C–U+001F, because there the program's two paths really differ; `Currency.ColumnParseImpliesRowParse` and `Journal.SeparatorShowsRowButCancelsSummary` state what happens otherwise.
- Journal.RowAndColumnAgree: full agreement, failures included, holds only without U+001C–U+001F, for the same reason.
- Journal.BadPnlRowFails: holds only without U+001C–U+001F, since a row with an edge separator can still be shown.
- Journal.BadPnlSkipsRowButCancelsSummary: holds only without U+001C–U+001F, for the same reason.
- `main()` builds the file path from the script's location (pnl_gui.py:122-133). That is environment plumbing and is not modelled; `Journal.Run` takes the extension, the readers and the date parser instead.
- Loader.FormatOf: carries no `ensures` of its own. Its behaviour is stated by `Loader.FormatOfIgnoresCase`, `Loader.CsvExtensions`, `Loader.ExcelExtensions` and `Loader.RefusedExtensions`.
- Currency.ParseAmount: has no contract of its own. Its behaviour is stated by `Currency.DecoratedSpelling`, `Currency.ForeignCharacterRejected`, `Currency.SeparatorFailsColumnParse`, `Currency.ThousandsSeparated` and the examples in `Scenarios`.
- Decimal.ParseNumber: has no contract of its own. It is stated by `Decimal.ParseNumberSpelling`, through `ParseDecimal`'s acceptance lemmas `Decimal.ParseSpelling` and `Decimal.ParseWritten` and their converse `Decimal.ParsedLiteral`.
- Display.RowPnl: its only contract is that a PnL needs the column. What it reads is stated by `Display.RenderRow`, `Journal.RowAndColumnAgree` and `Currency.ColumnParseImpliesRowParse`.
- Display.DisplayTrades: has no contract of its own. It is stated by `Display.DisplayTradesSelects`, `Display.DisplayTradesConcat`, `Display.SkippedRowLeavesOthers`, `Display.KeptRowInPlace` and `Display.RenderTable`.
- DataFrames.Show: `str()` of a converted date is its `YYYY-MM-DD` text, whereas `str()` of a pandas Timestamp adds ` HH:MM:SS`. The model also lets a reader put a date in any column. The journal formats only the `date` column, with `strftime('%Y-%m-%d')`, so neither difference changes a modelled result for reader output that keeps dates in that column.
- Loader.ConvertDates: converts each `date` value on its own, with the same parser for every row, as pandas releases before 2.0 did by default. pnl_gui.py:39 calls `pd.to_datetime` once on the whole column. From pandas 2.0 on, that call infers one format from the first non-missing value and applies it to every value. So a column can fail although each of its values parses alone (`"01/02/2024"` then `"13/02/2024"`), and a value's date can depend on the first row. "Succeeds exactly when every row converts" and "each date is the parser's date for that value" hold only under the per-value reading.
- Loader.Load: its success condition and its date-cell clause inherit the per-value reading of `Loader.ConvertDates`. Under pandas 2.0 or later, the real condition is that the column parses with the format inferred from its first value.
- Summary.Sum: has no contract of its own. It is the exact sum of the converted column, as used by `Summary.SummaryCounts`, `Summary.CountAndSum` and `Scenarios.ThreeTradeStats`.
- The `if total_trades > 0` test at pnl_gui.py:115 always holds in the program, because the summary runs only on a non-empty table. The model keeps the test in `Summary.Statistics`, and `Summary.Summarise` shows that the rates are always present.

=== FILE: currency.dfy ===
/** The PnL cell clean-up shared by the row path and the column path of
    `pnl_gui.py`: every `$` and every `,` is deleted (two literal
    `replace(c, '')` calls), then the rest is read as a number. */
module Currency {
  import opened Options
  import opened Text
  import opened Decimal

  /** `s.replace(c, '')` for a one-character literal pattern: every `c` goes,
      every other character keeps its number of occurrences. */
  function Remove(s: string, c: char): (r: string)
    ensures c !in r
    ensures |r| <= |s|
  {
    if |s| == 0 then []
    else (if s[0] == c then [] else [s[0]]) + Remove(s[1..], c)
  }

  /** What deletion takes away is exactly the occurrences of `c`. */
  lemma {:induction false} RemoveCounts(s: string, c: char)
    ensures |Remove(s, c)| == |s| - multiset(s)[c]
    ensures forall d | d != c :: multiset(Remove(s, c))[d] == multiset(s)[d]
    decreases |s|
  {
    if |s| > 0 {
      assert s == [s[0]] + s[1..];
      RemoveCounts(s[1..], c);
    }
  }

  /** Deletion works piecewise, so the characters that stay keep their order. */
  lemma {:induction false} RemoveConcat(a: string, b: string, c: char)
    ensures Remove(a + b, c) == Remove(a, c) + Remove(b, c)
    decreases |a|
  {
    if |a| == 0 {
      assert a + b == b;
    } else {
      assert (a + b)[1..] == a[1..] + b;
      RemoveConcat(a[1..], b, c);
    }
  }

  /** Deleting a character that does not occur changes nothing. */
  lemma {:induction false} RemoveAbsent(s: string, c: char)
    requires c !in s
    ensures Remove(s, c) == s
    decreases |s|
  {
    if |s| > 0 {
      assert c !in s[1..] by {
        assert forall i | 0 <= i < |s| - 1 :: s[1..][i] == s[i + 1];
      }
      RemoveAbsent(s[1..], c);
    }
  }

  predicate IsCurrencyMark(c: char) {
    c == '$' || c == ','
  }

  /** `s.replace('$', '').replace(',', '')`: the result holds no `$` and no
      `,`, and every other character occurs in it exactly as often as in `s`. */
  function StripCurrency(s: string): (r: string)
    ensures '$' !in r && ',' !in r
    ensures |r| <= |s|
  {
    var once := Remove(s, '$');
    assert '$' !in Remove(once, ',') by {
      RemoveCounts(once, ',');
      assert multiset(once)['$'] == 0;
    }
    Remove(once, ',')
  }

  /** Cleaning takes away exactly the currency marks. */
  lemma StripCurrencyCounts(s: string)
    ensures forall d | !IsCurrencyMark(d) :: multiset(StripCurrency(s))[d] == multiset(s)[d]
    ensures |StripCurrency(s)| == |s| - multiset(s)['$'] - multiset(s)[',']
  {
    RemoveCounts(s, '$');
    RemoveCounts(Remove(s, '$'), ',');
  }

  /** Cleaning works piecewise, so surviving characters keep their order. */
  lemma StripCurrencyConcat(a: string, b: string)
    ensures StripCurrency(a + b) == StripCurrency(a) + StripCurrency(b)
  {
    RemoveConcat(a, b, '$');
    RemoveConcat(Remove(a, '$'), Remove(b, '$'), ',');
  }

  /** A string is left alone exactly when it has nothing to clean. */
  lemma StripCurrencyFixedPoints(s: string)
    ensures StripCurrency(s) == s <==> '$' !in s && ',' !in s
  {
    if '$' !in s && ',' !in s {
      RemoveAbsent(s, '$');
      RemoveAbsent(s, ',');
    }
  }

  /** Cleaning twice is cleaning once. */
  lemma StripCurrencyIdempotent(s: string)
    ensures StripCurrency(StripCurrency(s)) == StripCurrency(s)
  {
    StripCurrencyFixedPoints(StripCurrency(s));
  }

  /** The column path (pnl_gui.py:107): clean the cell text, then `float()`. */
  function ParseAmount(text: string): Option<real> {
    ParseNumber(StripCurrency(text))
  }

  /** Whitespace has nothing to clean. */
  lemma StripCurrencyKeepsSpace(w: string)
    requires AllSpace(w)
    ensures StripCurrency(w) == w
  {
    assert '$' !in w && ',' !in w by {
      assert forall i | 0 <= i < |w| :: IsSpace(w[i]);
    }
    StripCurrencyFixedPoints(w);
  }

  /** Cleaning leaves whitespace padding where it was. */
  lemma StripCurrencyPadded(lead: string, t: string, trail: string)
    requires AllSpace(lead) && AllSpace(trail)
    ensures StripCurrency(lead + t + trail) == lead + StripCurrency(t) + trail
  {
    StripCurrencyConcat(lead + t, trail);
    StripCurrencyConcat(lead, t);
    StripCurrencyKeepsSpace(lead);
    StripCurrencyKeepsSpace(trail);
  }

  /** Cleaning brings in no separator ... */
  lemma StripCurrencyNoSeparator(s: string)
    requires !HasSeparator(s)
    ensures !HasSeparator(StripCurrency(s))
  {
    var r := StripCurrency(s);
    StripCurrencyCounts(s);
    forall j | 0 <= j < |r|
      ensures !IsSeparator(r[j])
    {
      var c := r[j];
      assert !IsCurrencyMark(c);
      assert multiset(r)[c] > 0;
      var i :| 0 <= i < |s| && s[i] == c;
    }
  }

  /** ... and takes none away. */
  lemma StripCurrencyKeepsSeparator(s: string)
    requires HasSeparator(s)
    ensures HasSeparator(StripCurrency(s))
  {
    var i :| 0 <= i < |s| && IsSeparator(s[i]);
    StripCurrencyKeeps(s, s[i]);
    var j :| 0 <= j < |StripCurrency(s)| && StripCurrency(s)[j] == s[i];
  }

  /** The column path (pnl_gui.py:107) fails on any text holding an
      information separator: `float()` does not skip one. */
  lemma SeparatorFailsColumnParse(text: string)
    requires HasSeparator(text)
    ensures ParseAmount(text) == None
  {
    StripCurrencyKeepsSeparator(text);
  }

  /** The row path (pnl_gui.py:73-74): `strip()` first, then clean and
      `float()`. On a text without information separators it yields the same
      result as the column path, because `float()` skips that whitespace
      anyway. */
  lemma RowParseMatchesColumnParse(text: string)
    requires !HasSeparator(text)
    ensures ParseAmount(Trim(text)) == ParseAmount(text)
  {
    var k := TrimSplits(text);
    var t := Trim(text);
    var lead := text[..k];
    var trail := text[k + |t|..];
    var core := StripCurrency(t);
    TrimNoSeparator(text);
    StripCurrencyNoSeparator(text);
    StripCurrencyNoSeparator(t);
    StripCurrencyPadded(lead, t, trail);
    assert StripCurrency(text) == lead + core + trail;
    TrimIgnoresPadding(lead, core, trail);
    assert Trim(StripCurrency(text)) == Trim(core);
  }

  /** Whatever the column path reads, the row path reads too, as the same
      number; only the row path can succeed where the column path fails. */
  lemma ColumnParseImpliesRowParse(text: string)
    ensures ParseAmount(text).Some? ==> ParseAmount(Trim(text)) == ParseAmount(text)
  {
    if HasSeparator(text) {
      SeparatorFailsColumnParse(text);
    } else {
      RowParseMatchesColumnParse(text);
    }
  }

  /** Any text that cleans to the canonical spelling of a number reads as
      that number: "$1,234.56" and "-$50" are read through "1234.56" and "-50". */
  lemma DecoratedSpelling(text: string, l: Literal)
    requires l.Valid() && StripCurrency(text) == l.Spelling()
    ensures ParseAmount(text) == Some(l.Value())
  {
    ParseNumberSpelling(l);
  }

  /** Cleaning keeps every character that is not a currency mark. */
  lemma StripCurrencyKeeps(text: string, c: char)
    requires c in text && !IsCurrencyMark(c)
    ensures c in StripCurrency(text)
  {
    StripCurrencyCounts(text);
    assert multiset(text)[c] > 0;
    assert multiset(StripCurrency(text))[c] > 0;
  }

  /** A character that is neither part of a number, a currency mark, nor
      whitespace makes the amount unreadable (so "abc" is rejected). */
  lemma ForeignCharacterRejected(text: string, i: nat)
    requires i < |text|
    requires !IsNumeral(text[i]) && !IsCurrencyMark(text[i]) && !IsSpace(text[i])
    ensures ParseAmount(text) == None
  {
    var c := text[i];
    StripCurrencyKeeps(text, c);
    var t := Trim(StripCurrency(text));
    NonSpaceSurvivesTrim(StripCurrency(text), c);
    var j :| 0 <= j < |t| && t[j] == c;
  }

  /** A leading `$` and a thousands separator make no difference:
      "$" + w1 + "," + w2 + "." + f reads as the number whose whole digits are
      w1 + w2 (so "$1,234.56" reads as 1234.56). */
  lemma ThousandsSeparated(w1: string, w2: string, f: string)
    requires AllDigits(w1) && AllDigits(w2) && AllDigits(f) && |w1| + |w2| > 0 && |f| > 0
    ensures ParseAmount("$" + w1 + "," + (w2 + "." + f)) == Some(Literal(false, w1 + w2, f).Value())
  {
    var l := Literal(false, w1 + w2, f);
    var tail := w2 + "." + f;
    NoMarksInDigits(w1);
    NoMarksInDigits(tail);
    StripSeparators(w1, tail);
    SeparatedSpelling(w1, w2, f);
    DecoratedSpelling("$" + w1 + "," + tail, l);
  }

  /** Cleaning "$" + a + "," + b leaves a + b when a and b hold no marks. */
  lemma StripSeparators(a: string, b: string)
    requires StripCurrency(a) == a && StripCurrency(b) == b
    ensures StripCurrency("$" + a + "," + b) == a + b
  {
    StripCurrencyConcat("$" + a + ",", b);
    StripCurrencyConcat("$" + a, ",");
    StripCurrencyConcat("$", a);
    CleanMark('$');
    CleanMark(',');
    assert [] + a + [] == a;
  }

  lemma SeparatedSpelling(w1: string, w2: string, f: string)
    requires |f| > 0
    ensures Literal(false, w1 + w2, f).Spelling() == w1 + (w2 + "." + f)
  {
    var l := Literal(false, w1 + w2, f);
    assert l.Mantissa() == (w1 + w2) + ("." + f);
    assert l.Spelling() == l.Mantissa();
    assert (w1 + w2) + ("." + f) == w1 + (w2 + "." + f);
  }

  lemma CleanMark(c: char)
    requires IsCurrencyMark(c)
    ensures StripCurrency([c]) == []
  {
  }

  /** Digits and points have nothing to clean. */
  lemma NoMarksInDigits(s: string)
    requires forall i | 0 <= i < |s| :: IsDigit(s[i]) || s[i] == '.'
    ensures StripCurrency(s) == s
  {
    assert '$' !in s && ',' !in s;
    StripCurrencyFixedPoints(s);
  }

  // Worked cleanings of the PnL texts "-$50", "$100" and "$0".

  lemma CleanNegative()
    ensures StripCurrency("-$50") == "-50"
  {
    assert Remove("-$50", '$') == "-50";
    assert Remove("-50", ',') == "-50";
  }

  lemma CleanHundred()
    ensures StripCurrency("$100") == "100"
  {
    assert Remove("$100", '$') == "100";
    assert Remove("100", ',') == "100";
  }

  lemma CleanZero()
    ensures StripCurrency("$0") == "0"
  {
    assert Remove("$0", '$') == "0";
    assert Remove("0", ',') == "0";
  }

  /** The two readings of "\U{1C}5". */
  lemma SeparatorFivePaths()
    ensures Trim("\U{1C}5") == "5"
    ensures ParseAmount("5") == Some(5.0)
    ensures ParseAmount("\U{1C}5") == None
  {
    TrimSeparatorFive();
    FiveAmount();
    SeparatorFiveRejected();
  }

  lemma TrimSeparatorFive()
    ensures Trim("\U{1C}5") == "5"
  {
    var t := "\U{1C}5";
    LeadingSpaceIs(t, 1);
    TrailingSpaceIs(t, 0);
    assert t[1..2] == "5";
  }

  lemma FiveAmount()
    ensures ParseAmount("5") == Some(5.0)
  {
    var l := Literal(false, "5", "");
    assert l.Spelling() == "5";
    assert IsDigit("5"[0]);
    NoMarksInDigits("5");
    DecoratedSpelling("5", l);
  }

  lemma SeparatorFiveRejected()
    ensures ParseAmount("\U{1C}5") == None
  {
    var t := "\U{1C}5";
    assert IsSeparator(t[0]);
    SeparatorFailsColumnParse(t);
  }
}

=== FILE: dataframes.dfy ===
/** The in-memory table the journal works on: pandas' `DataFrame`, reduced to
    what the journal touches — named columns and rows of string cells, where
    the `date` column may hold converted dates. */
module DataFrames {

  /** A calendar date as `pd.to_datetime` produces it. The journal only ever
      formats it with `strftime('%Y-%m-%d')`, so the model keeps that text. */
  datatype Date = Date(iso: string)

  /** One cell: the text a reader produced, or a converted date. */
  datatype Cell = Text(text: string) | Stamp(date: Date)

  /** One row, looked up by column name (`row['PnL']`). */
  type Row = map<string, Cell>

  /** The column names the journal reads. */
  const DateColumn := "date"
  const SessionColumn := "trading session"
  const QuantityColumn := "quantity"
  const RiskRewardColumn := "risk:reward"
  const PnlColumn := "PnL"
  const ChangeColumn := "percentage change"
  const CommentsColumn := "comments"

  datatype DataFrame = DataFrame(columns: seq<string>, rows: seq<Row>) {

    /** pandas' `DataFrame.empty`: no rows or no columns. */
    predicate IsEmpty() {
      |columns| == 0 || |rows| == 0
    }

    function ColumnSet(): set<string> {
      set c | c in columns
    }

    /** Every row has exactly the frame's columns, as pandas guarantees. */
    predicate WellFormed() {
      forall i | 0 <= i < |rows| :: rows[i].Keys == ColumnSet()
    }
  }

  /** `pd.DataFrame()`: what every failed load leaves behind. */
  const NoFrame := DataFrame([], [])

  /** `str(cell)`. */
  function Show(c: Cell): string {
    match c
    case Text(t) => t
    case Stamp(d) => d.iso
  }
}

=== FILE: decimal.dfy ===
/** The numeric part of Python's `float(text)` as the journal uses it, over a
    restricted decimal grammar:

      number   ::= space* sign? mantissa space*
      space    ::= ' ' | '\t' | '\n' | '\r' | '\v' | '\f'
      sign     ::= '+' | '-'
      mantissa ::= digit+ ( '.' digit* )? | '.' digit+

    Values are exact reals. This is a strict subset of what `float()` accepts:
    exponents, `inf`/`nan`, digit-group underscores and non-ASCII digits and
    whitespace are not part of it, and no binary rounding happens. */
module Decimal {
  import opened Options
  import opened Text

  predicate IsDigit(c: char) {
    '0' <= c <= '9'
  }

  predicate AllDigits(s: string) {
    forall i | 0 <= i < |s| :: IsDigit(s[i])
  }

  /** The characters a number in the grammar can be spelled with. */
  predicate IsNumeral(c: char) {
    IsDigit(c) || c == '+' || c == '-' || c == '.'
  }

  function Pow10(n: nat): (p: nat)
    ensures p >= 1
  {
    if n == 0 then 1 else 10 * Pow10(n - 1)
  }

  /** The value of a run of decimal digits, most significant first; it always
      fits in as many decimal places as there are digits. */
  function DigitsValue(s: string): (v: nat)
    requires AllDigits(s)
    ensures v < Pow10(|s|)
  {
    if |s| == 0 then 0
    else
      var prefix := DigitsValue(s[..|s| - 1]);
      var d := s[|s| - 1] as int - '0' as int;
      assert prefix * 10 + d <= (Pow10(|s| - 1) - 1) * 10 + 9;
      prefix * 10 + d
  }

  /** Position of the first '.', or `|s|` when there is none. */
  function DotIndex(s: string): (i: nat)
    ensures i <= |s|
    ensures i < |s| ==> s[i] == '.'
    ensures forall j | 0 <= j < i :: s[j] != '.'
  {
    DotFrom(s, 0)
  }

  /** Position of the first '.' at or after `k`, or `|s|`. */
  function DotFrom(s: string, k: nat): (i: nat)
    requires k <= |s|
    ensures k <= i <= |s|
    ensures i < |s| ==> s[i] == '.'
    ensures forall j | k <= j < i :: s[j] != '.'
    decreases |s| - k
  {
    if k == |s| || s[k] == '.' then k else DotFrom(s, k + 1)
  }

  /** The first '.' is where the characters before it are no '.'. */
  lemma DotIndexIs(s: string, i: nat)
    requires i <= |s| && forall j | 0 <= j < i :: s[j] != '.'
    requires i < |s| ==> s[i] == '.'
    ensures DotIndex(s) == i
  {
  }

  /** An unsigned mantissa: digits, optionally a point and more digits, with
      at least one digit in all. */
  function ParseMantissa(s: string): (r: Option<real>)
    ensures r.Some? ==> r.value >= 0.0
    ensures r.Some? ==> |s| > 0 && forall i | 0 <= i < |s| :: IsDigit(s[i]) || s[i] == '.'
  {
    var i := DotIndex(s);
    var whole := s[..i];
    var fraction := if i < |s| then s[i + 1..] else [];
    if AllDigits(whole) && AllDigits(fraction) && |whole| + |fraction| > 0 then
      assert forall j | 0 <= j < |s| :: IsDigit(s[j]) || s[j] == '.' by {
        forall j | 0 <= j < |s|
          ensures IsDigit(s[j]) || s[j] == '.'
        {
          if j < i {
            assert s[j] == whole[j];
          } else if j > i {
            assert s[j] == fraction[j - i - 1];
          }
        }
      }
      Some(Magnitude(whole, fraction))
    else
      None
  }

  /** The value of whole digits, a point, and fraction digits. */
  function Magnitude(whole: string, fraction: string): (v: real)
    requires AllDigits(whole) && AllDigits(fraction)
    ensures v >= 0.0
  {
    var d, p := DigitsValue(fraction) as real, Pow10(|fraction|) as real;
    QuotientNonNegative(d, p);
    DigitsValue(whole) as real + d / p
  }

  lemma QuotientNonNegative(a: real, b: real)
    requires a >= 0.0 && b > 0.0
    ensures a / b >= 0.0
  {
  }

  /** An optionally signed mantissa, with no surrounding whitespace. */
  function ParseDecimal(s: string): (r: Option<real>)
    ensures r.Some? ==> |s| > 0 && forall i | 0 <= i < |s| :: IsNumeral(s[i])
    ensures r.Some? && r.value < 0.0 ==> s[0] == '-'
  {
    if |s| > 0 && (s[0] == '+' || s[0] == '-') then
      match ParseMantissa(s[1..])
      case None => None
      case Some(m) => Some(if s[0] == '-' then -m else m)
    else
      ParseMantissa(s)
  }

  /** `float(s)` on the restricted grammar. `float()` skips the six ASCII
      whitespace characters around the number but not the information
      separators, and a separator is no numeral either, so one anywhere in
      the text makes it fail. Without separators, skipping whitespace is
      `Trim`. */
  function ParseNumber(s: string): Option<real> {
    if HasSeparator(s) then None else ParseDecimal(Trim(s))
  }

  /** A number spelled in the grammar: its sign, whole digits and fraction digits. */
  datatype Literal = Literal(negative: bool, whole: string, fraction: string) {

    predicate Valid() {
      AllDigits(whole) && AllDigits(fraction) && |whole| + |fraction| > 0
    }

    function Value(): real
      requires Valid()
    {
      if negative then -Magnitude(whole, fraction) else Magnitude(whole, fraction)
    }

    /** The canonical spelling: a '-' when negative, the whole digits, and a
        point followed by the fraction digits when there are any. */
    function Spelling(): string {
      (if negative then "-" else "") + Mantissa()
    }

    function Mantissa(): string {
      whole + (if |fraction| > 0 then "." + fraction else "")
    }
  }

  lemma MantissaRoundTrip(l: Literal)
    requires l.Valid()
    ensures ParseMantissa(l.Mantissa()) == Some(Magnitude(l.whole, l.fraction))
  {
    var u := l.Mantissa();
    var i := DotIndex(u);
    assert u[..|l.whole|] == l.whole;
    if |l.fraction| > 0 {
      assert u[|l.whole|] == '.';
      assert i == |l.whole|;
      assert u[i + 1..] == l.fraction;
    } else {
      assert u == l.whole;
    }
  }

  lemma NegativeRoundTrip(l: Literal)
    requires l.Valid() && l.negative
    ensures ParseDecimal(l.Spelling()) == Some(l.Value())
  {
    var u := l.Mantissa();
    var s := l.Spelling();
    MantissaRoundTrip(l);
    var m := Magnitude(l.whole, l.fraction);
    assert s == "-" + u;
    assert s[0] == '-' && s[1..] == u;
    NegatedMantissa(s, m);
  }

  /** A '-' followed by a mantissa reads as the negated mantissa. */
  lemma NegatedMantissa(s: string, m: real)
    requires |s| > 0 && s[0] == '-' && ParseMantissa(s[1..]) == Some(m)
    ensures ParseDecimal(s) == Some(-m)
  {
  }

  lemma NonNegativeRoundTrip(l: Literal)
    requires l.Valid() && !l.negative
    ensures ParseDecimal(l.Spelling()) == Some(l.Value())
  {
    var u := l.Mantissa();
    var s := l.Spelling();
    MantissaRoundTrip(l);
    assert s == u;
    assert |l.whole| > 0 ==> u[0] == l.whole[0];
    assert |l.whole| == 0 ==> u[0] == '.';
  }

  /** Parsing the canonical spelling of a literal gives back its value. */
  lemma ParseSpelling(l: Literal)
    requires l.Valid()
    ensures ParseDecimal(l.Spelling()) == Some(l.Value())
  {
    if l.negative {
      NegativeRoundTrip(l);
    } else {
      NonNegativeRoundTrip(l);
    }
  }

  /** A canonical spelling has no whitespace at either end. */
  lemma SpellingIsTrimmed(l: Literal)
    requires l.Valid()
    ensures Trim(l.Spelling()) == l.Spelling()
  {
    var u := l.Mantissa();
    var s := l.Spelling();
    assert s[|s| - 1] == u[|u| - 1];
    assert s[0] == '-' || s[0] == u[0];
    assert |l.whole| > 0 ==> u[0] == l.whole[0];
    assert |l.whole| == 0 ==> u[0] == '.';
    assert |l.fraction| > 0 ==> u[|u| - 1] == l.fraction[|l.fraction| - 1];
    assert |l.fraction| == 0 ==> u[|u| - 1] == l.whole[|l.whole| - 1];
    TrimKeepsTrimmed(s);
  }

  /** How every accepted mantissa is written: whole digits, then a point and
      fraction digits when there is a point; its value is their magnitude. */
  lemma ParsedMantissa(s: string) returns (whole: string, point: bool, fraction: string)
    requires ParseMantissa(s).Some?
    ensures AllDigits(whole) && AllDigits(fraction) && |whole| + |fraction| > 0
    ensures point || fraction == []
    ensures s == whole + (if point then "." + fraction else "")
    ensures ParseMantissa(s) == Some(Magnitude(whole, fraction))
  {
    var i := DotIndex(s);
    whole := s[..i];
    point := i < |s|;
    fraction := if point then s[i + 1..] else [];
    if point {
      assert s[i..] == "." + fraction;
      assert s == whole + s[i..];
    } else {
      assert s == whole;
    }
  }

  /** The converse of `ParseSpelling`: every text `ParseDecimal` accepts is
      an optional sign followed by a literal's whole digits and, when a point
      is written, its fraction digits; its value is that literal's value. So
      a second point ("1.2.3") or a misplaced sign ("5-") is refused. */
  lemma ParsedLiteral(s: string) returns (sign: string, l: Literal, point: bool)
    requires ParseDecimal(s).Some?
    ensures sign == "" || sign == "+" || sign == "-"
    ensures l.Valid() && (l.negative <==> sign == "-")
    ensures point || l.fraction == []
    ensures s == sign + l.whole + (if point then "." + l.fraction else "")
    ensures ParseDecimal(s) == Some(l.Value())
  {
    if |s| > 0 && (s[0] == '+' || s[0] == '-') {
      sign, l, point := ParsedSigned(s);
    } else {
      var whole, fraction;
      sign := "";
      whole, point, fraction := ParsedMantissa(s);
      l := Literal(false, whole, fraction);
    }
  }

  /** `ParsedLiteral` for a text that starts with a sign. */
  lemma ParsedSigned(s: string) returns (sign: string, l: Literal, point: bool)
    requires ParseDecimal(s).Some? && |s| > 0 && (s[0] == '+' || s[0] == '-')
    ensures sign == [s[0]]
    ensures l.Valid() && (l.negative <==> s[0] == '-')
    ensures point || l.fraction == []
    ensures s == sign + l.whole + (if point then "." + l.fraction else "")
    ensures ParseDecimal(s) == Some(l.Value())
  {
    sign := [s[0]];
    var whole, fraction;
    whole, point, fraction := ParsedMantissa(s[1..]);
    l := Literal(s[0] == '-', whole, fraction);
    ConsSplit(s, whole, if point then "." + fraction else "");
    SignedValue(s, l);
  }

  lemma ConsSplit(s: string, x: string, y: string)
    requires |s| > 0 && s[1..] == x + y
    ensures s == [s[0]] + x + y
  {
    assert s == [s[0]] + s[1..];
  }

  /** A sign followed by a literal's mantissa reads as that literal. */
  lemma SignedValue(s: string, l: Literal)
    requires l.Valid() && |s| > 0 && (s[0] == '+' || s[0] == '-') && (l.negative <==> s[0] == '-')
    requires ParseMantissa(s[1..]) == Some(Magnitude(l.whole, l.fraction))
    ensures ParseDecimal(s) == Some(l.Value())
  {
  }

  /** The converse of `ParsedLiteral`, and more than `ParseSpelling`: every
      text in the grammar's shape is accepted with its literal's value,
      whether or not it is canonical. So "+5" and "5." read as 5, as they do
      under `float()`. */
  lemma ParseWritten(sign: string, l: Literal, point: bool)
    requires sign == "" || sign == "+" || sign == "-"
    requires l.Valid() && (l.negative <==> sign == "-")
    requires point || l.fraction == []
    ensures ParseDecimal(sign + l.whole + (if point then "." + l.fraction else "")) == Some(l.Value())
  {
    var tail := if point then "." + l.fraction else "";
    var u := l.whole + tail;
    MantissaWritten(l.whole, point, l.fraction);
    Regroup(sign, l.whole, tail);
    if sign == "" {
      assert sign + u == u;
      UnsignedMantissa(u);
    } else {
      SignedMantissa(sign, u, l);
    }
  }

  lemma Regroup(a: string, b: string, c: string)
    ensures a + b + c == a + (b + c)
  {
    assert forall i | 0 <= i < |a + b + c| :: (a + b + c)[i] == (a + (b + c))[i];
  }

  /** An unsigned mantissa reads the same as a whole number. */
  lemma UnsignedMantissa(u: string)
    requires ParseMantissa(u).Some?
    ensures ParseDecimal(u) == ParseMantissa(u)
  {
    assert IsDigit(u[0]) || u[0] == '.';
  }

  /** A sign written before a literal's mantissa reads as the literal. */
  lemma SignedMantissa(sign: string, u: string, l: Literal)
    requires sign == "+" || sign == "-"
    requires l.Valid() && (l.negative <==> sign == "-")
    requires ParseMantissa(u) == Some(Magnitude(l.whole, l.fraction))
    ensures ParseDecimal(sign + u) == Some(l.Value())
  {
    var s := sign + u;
    assert s[0] == sign[0] && s[1..] == u;
    SignedValue(s, l);
  }

  /** Whole digits, then a point and fraction digits when a point is
      written, read as their magnitude; a trailing or leading point is
      allowed as long as some digit is there. */
  lemma MantissaWritten(whole: string, point: bool, fraction: string)
    requires AllDigits(whole) && AllDigits(fraction) && |whole| + |fraction| > 0
    requires point || fraction == []
    ensures ParseMantissa(whole + (if point then "." + fraction else "")) == Some(Magnitude(whole, fraction))
  {
    var u := whole + (if point then "." + fraction else "");
    assert u[..|whole|] == whole;
    forall j | 0 <= j < |whole|
      ensures u[j] != '.'
    {
      assert u[j] == whole[j];
    }
    if point {
      assert u[|whole|] == '.';
      DotIndexIs(u, |whole|);
      assert u[|whole| + 1..] == fraction;
    } else {
      assert u == whole;
      DotIndexIs(u, |whole|);
    }
  }

  /** `float("+5")` and `float("5.")` are both 5. */
  lemma PlusAndTrailingPoint()
    ensures ParseDecimal("+5") == Some(5.0)
    ensures ParseDecimal("5.") == Some(5.0)
  {
    var l := Literal(false, "5", "");
    assert l.Value() == 5.0;
    ParseWritten("+", l, false);
    assert "+" + l.whole + "" == "+5";
    ParseWritten("", l, true);
    assert "" + l.whole + ("." + l.fraction) == "5.";
  }

  /** A canonical spelling holds no information separator. */
  lemma SpellingHasNoSeparator(l: Literal)
    requires l.Valid()
    ensures !HasSeparator(l.Spelling())
  {
    var s := l.Spelling();
    ParseSpelling(l);
    forall i | 0 <= i < |s|
      ensures !IsSeparator(s[i])
    {
      assert IsNumeral(s[i]);
    }
  }

  /** The same round trip holds for `float()`. */
  lemma ParseNumberSpelling(l: Literal)
    requires l.Valid()
    ensures ParseNumber(l.Spelling()) == Some(l.Value())
  {
    var s := l.Spelling();
    SpellingHasNoSeparator(l);
    ParseSpelling(l);
    SpellingIsTrimmed(l);
    assert ParseNumber(s) == ParseDecimal(Trim(s));
  }
}

=== FILE: display.dfy ===
/** The row loop of `TradingJournal.display_trades` (pnl_gui.py:69-88): every
    row is rendered on its own; a row whose cells cannot be read or whose PnL
    does not parse is skipped, its warning taken as printed. */
module Display {
  import opened Options
  import opened Text
  import opened Currency
  import opened DataFrames
  import opened Lists

  /** The two PnL styles of the table and the summary. */
  datatype Style = Profit | Loss

  /** Row colouring (pnl_gui.py:75): a PnL of zero is shown as profit. */
  function StyleOf(v: real): (s: Style)
    ensures s == Profit <==> v >= 0.0
  {
    if v >= 0.0 then Profit else Loss
  }

  /** One table line, in column order, with the PnL's style. */
  datatype DisplayRow = DisplayRow(
    date: string,
    session: string,
    quantity: string,
    riskReward: string,
    pnl: string,
    style: Style,
    change: string,
    comments: string)

  /** `row[column]`, which raises `KeyError` when the column is absent. */
  function Lookup(row: Row, column: string): Option<Cell> {
    if column in row then Some(row[column]) else None
  }

  /** `str(row[column])`. */
  function CellText(row: Row, column: string): Option<string> {
    match Lookup(row, column)
    case None => None
    case Some(c) => Some(Show(c))
  }

  /** `row['date'].strftime('%Y-%m-%d')`: only a converted date has `strftime`. */
  function DateText(row: Row): (r: Option<string>)
    ensures r.Some? <==> DateColumn in row && row[DateColumn].Stamp?
    // `%Y-%m-%d` is the date's ISO day.
    ensures r.Some? ==> r.value == row[DateColumn].date.iso
  {
    match Lookup(row, DateColumn)
    case Some(Stamp(d)) => Some(d.iso)
    case _ => None
  }

  /** The PnL as the row path reads it: `str(...)`, `strip()`, delete `$` and
      `,`, then `float()`. */
  function RowPnl(row: Row): (r: Option<real>)
    ensures r.Some? ==> PnlColumn in row
  {
    match CellText(row, PnlColumn)
    case None => None
    case Some(t) => ParseAmount(Trim(t))
  }

  /** Every cell the row path reads is there and the date is a date. */
  predicate HasDisplayCells(row: Row) {
    && DateColumn in row && row[DateColumn].Stamp?
    && SessionColumn in row && QuantityColumn in row && RiskRewardColumn in row
    && PnlColumn in row && ChangeColumn in row && CommentsColumn in row
  }

  /** A table line carries the row's cells as text: the date as its ISO day,
      the change with a "%" after it, the others as `str` gives them. */
  predicate ShowsCells(row: Row, d: DisplayRow)
    requires HasDisplayCells(row)
  {
    && d.date == row[DateColumn].date.iso
    && d.session == Show(row[SessionColumn])
    && d.quantity == Show(row[QuantityColumn])
    && d.riskReward == Show(row[RiskRewardColumn])
    && d.change == Show(row[ChangeColumn]) + "%"
    && d.comments == Show(row[CommentsColumn])
  }

  /** The body of the `try` at pnl_gui.py:71-85 for one row. */
  function RenderRow(row: Row): (r: Option<DisplayRow>)
    // A row is shown exactly when all its cells can be read and its PnL parses.
    ensures r.Some? <==> HasDisplayCells(row) && RowPnl(row).Some?
    // Its style is profit exactly when the PnL is not negative.
    ensures r.Some? ==> (r.value.style == Profit <==> RowPnl(row).value >= 0.0)
    // The PnL is shown as written, only trimmed.
    ensures r.Some? ==> r.value.pnl == Trim(Show(row[PnlColumn]))
  {
    if !HasDisplayCells(row) then None
    else
      match RowPnl(row)
      case None => None
      case Some(v) =>
        Some(DisplayRow(
          DateText(row).value,
          Show(row[SessionColumn]),
          Show(row[QuantityColumn]),
          Show(row[RiskRewardColumn]),
          Trim(Show(row[PnlColumn])),
          StyleOf(v),
          Show(row[ChangeColumn]) + "%",
          Show(row[CommentsColumn])))
  }

  /** What a shown row holds besides its PnL: every other cell, as text. */
  lemma RenderedCells(row: Row)
    requires RenderRow(row).Some?
    ensures HasDisplayCells(row) && ShowsCells(row, RenderRow(row).value)
  {
  }

  /** The rows the table shows, in table order. */
  function DisplayTrades(rows: seq<Row>): seq<DisplayRow> {
    FilterMap(RenderRow, rows)
  }

  /** Rows are rendered independently: the table of a concatenation is the
      concatenation of the tables. */
  lemma DisplayTradesConcat(a: seq<Row>, b: seq<Row>)
    ensures DisplayTrades(a + b) == DisplayTrades(a) + DisplayTrades(b)
  {
    FilterMapConcat(RenderRow, a, b);
  }

  /** A row that fails is skipped and changes nothing about the others. */
  lemma SkippedRowLeavesOthers(a: seq<Row>, row: Row, b: seq<Row>)
    requires RenderRow(row).None?
    ensures DisplayTrades(a + [row] + b) == DisplayTrades(a + b)
  {
    FilterMapConcat(RenderRow, a + [row], b);
    FilterMapSnoc(RenderRow, a, row);
    FilterMapConcat(RenderRow, a, b);
  }

  /** A row that renders appears exactly where it stands. */
  lemma KeptRowInPlace(a: seq<Row>, row: Row, b: seq<Row>)
    requires RenderRow(row).Some?
    ensures DisplayTrades(a + [row] + b) ==
            DisplayTrades(a) + [RenderRow(row).value] + DisplayTrades(b)
  {
    FilterMapConcat(RenderRow, a + [row], b);
    FilterMapSnoc(RenderRow, a, row);
  }

  /** The table is the rendered rows, picked in increasing table order, and
      every row left out is one that fails; so it never shows more rows than
      were loaded. */
  lemma DisplayTradesSelects(rows: seq<Row>) returns (picked: seq<nat>)
    ensures |picked| == |DisplayTrades(rows)| <= |rows|
    ensures forall j | 0 <= j < |picked| :: picked[j] < |rows|
    ensures forall j, k | 0 <= j < k < |picked| :: picked[j] < picked[k]
    ensures forall j | 0 <= j < |picked| :: RenderRow(rows[picked[j]]) == Some(DisplayTrades(rows)[j])
    ensures forall i | 0 <= i < |rows| && i !in picked :: RenderRow(rows[i]).None?
  {
    picked := FilterMapSelects(RenderRow, rows);
  }

  /** One more row: the table grows by that row's rendering, or not at all. */
  lemma DisplayTradesStep(rows: seq<Row>, i: nat)
    requires i < |rows|
    ensures DisplayTrades(rows[..i + 1]) ==
            DisplayTrades(rows[..i]) + (if RenderRow(rows[i]).Some? then [RenderRow(rows[i]).value] else [])
  {
    assert rows[..i + 1] == rows[..i] + [rows[i]];
    FilterMapSnoc(RenderRow, rows[..i], rows[i]);
  }

  /** The loop itself (pnl_gui.py:70-88): walks the rows in order, adds each
      row that renders, counts the ones it skips. */
  method RenderTable(rows: seq<Row>) returns (shown: seq<DisplayRow>, skipped: nat)
    ensures shown == DisplayTrades(rows)
    ensures |shown| + skipped == |rows|
  {
    shown, skipped := [], 0;
    var i := 0;
    while i < |rows|
      invariant 0 <= i <= |rows|
      invariant shown == DisplayTrades(rows[..i])
      invariant |shown| + skipped == i
    {
      DisplayTradesStep(rows, i);
      var r := RenderRow(rows[i]);
      if r.Some? {
        shown := shown + [r.value];
      } else {
        skipped := skipped + 1;
      }
      i := i + 1;
    }
    assert rows[..i] == rows;
  }
}

=== FILE: journal.dfy ===
/** The whole journal (pnl_gui.py:20-23, 48-100, 122-130): load the file once,
    then show the table and the summary — or a "no data" notice when the
    loaded table is empty. */
module Journal {
  import opened Options
  import opened Text
  import opened Currency
  import opened DataFrames
  import opened Loader
  import opened Display
  import opened Summary

  /** What `display_trades` puts on the terminal. */
  datatype Screen =
    | NoTradingData
    | Screen(table: seq<DisplayRow>, summary: SummaryOutcome)

  /** `display_trades`: the empty check, the table, then the summary. */
  function ShowJournal(frame: DataFrame): (s: Screen)
    ensures s.NoTradingData? <==> frame.IsEmpty()
    // Behind a table there is always data, so the summary's own emptiness
    // check never fires here.
    ensures s.Screen? ==> !s.summary.NoSummary?
    ensures s.Screen? ==> |s.table| <= |frame.rows|
    // The screen holds the rows the loop renders, then the summary of the
    // whole table.
    ensures s.Screen? ==> s.table == DisplayTrades(frame.rows) && s.summary == Summarise(frame)
  {
    if frame.IsEmpty() then NoTradingData
    else Screen(DisplayTrades(frame.rows), Summarise(frame))
  }

  /** `TradingJournal(path).display_trades()`, for a path whose extension,
      readers and date parser are given. */
  function Run(extension: string, readers: Readers, toDate: DateParser): (s: Screen)
    ensures Load(extension, readers, toDate).diagnostic != Clean ==> s == NoTradingData
    ensures FormatOf(extension).None? ==> s == NoTradingData
    // Otherwise the journal shows the loaded table: "no data" exactly when it
    // is empty, else its rendered rows and its summary.
    ensures var data := Load(extension, readers, toDate).data;
            && (s.NoTradingData? <==> data.IsEmpty())
            && (s.Screen? ==> s.table == DisplayTrades(data.rows) && s.summary == Summarise(data))
  {
    ShowJournal(Load(extension, readers, toDate).data)
  }

  /** For a text PnL cell the row path reads whatever the column path reads,
      as the same number; on a text without information separators the two
      agree outright, failures included. */
  lemma RowAndColumnAgree(row: Row)
    requires PnlColumn in row && row[PnlColumn].Text?
    ensures ColumnCell(row).Some? ==> RowPnl(row) == ColumnCell(row)
    ensures !HasSeparator(row[PnlColumn].text) ==> RowPnl(row) == ColumnCell(row)
  {
    var text := row[PnlColumn].text;
    ColumnParseImpliesRowParse(text);
    if !HasSeparator(text) {
      RowParseMatchesColumnParse(text);
    }
  }

  /** Where the two paths part: a PnL text with an information separator at
      its edge, such as "\U{1C}5", is stripped to "5" and shown in the table,
      while the column conversion rejects it and cancels the summary. */
  lemma SeparatorShowsRowButCancelsSummary(frame: DataFrame, i: nat)
    requires !frame.IsEmpty() && i < |frame.rows|
    requires HasDisplayCells(frame.rows[i]) && frame.rows[i][PnlColumn] == Text("\U{1C}5")
    ensures RenderRow(frame.rows[i]).Some?
    ensures RenderRow(frame.rows[i]).value.pnl == "5"
    ensures RowPnl(frame.rows[i]) == Some(5.0)
    ensures Summarise(frame) == StatsFailed
  {
    SeparatorFiveRejected();
    SeparatorRowShown(frame.rows[i]);
    BadPnlCancelsSummary(frame, i);
  }

  /** A row whose PnL is "\U{1C}5" is shown, with "5" as its PnL. */
  lemma SeparatorRowShown(row: Row)
    requires HasDisplayCells(row) && row[PnlColumn] == Text("\U{1C}5")
    ensures RowPnl(row) == Some(5.0)
    ensures RenderRow(row).Some? && RenderRow(row).value.pnl == "5"
  {
    SeparatorFivePaths();
    assert CellText(row, PnlColumn) == Some("\U{1C}5");
  }

  /** The summary counts every loaded trade, including the rows the table
      skipped. */
  lemma TotalIncludesSkippedRows(frame: DataFrame)
    requires ShowJournal(frame).Screen? && ShowJournal(frame).summary.Summarised?
    ensures ShowJournal(frame).summary.stats.total == |frame.rows|
    ensures |ShowJournal(frame).table| <= ShowJournal(frame).summary.stats.total
  {
  }

  /** A PnL text that does not parse cancels the summary ... */
  lemma BadPnlCancelsSummary(frame: DataFrame, i: nat)
    requires !frame.IsEmpty() && i < |frame.rows|
    requires PnlColumn in frame.rows[i] && frame.rows[i][PnlColumn].Text?
    requires ParseAmount(frame.rows[i][PnlColumn].text).None?
    ensures Summarise(frame) == StatsFailed
  {
    assert ColumnCell(frame.rows[i]).None?;
  }

  /** ... and, unless it holds an information separator (see
      `SeparatorShowsRowButCancelsSummary`), makes its own row fail in the
      table. */
  lemma BadPnlRowFails(row: Row)
    requires PnlColumn in row && row[PnlColumn].Text?
    requires ParseAmount(row[PnlColumn].text).None?
    requires !HasSeparator(row[PnlColumn].text)
    ensures RenderRow(row).None?
  {
    RowAndColumnAgree(row);
  }

  /** One unreadable PnL text without information separators: the table just
      leaves that row out, while the summary is cancelled as a whole. */
  lemma BadPnlSkipsRowButCancelsSummary(frame: DataFrame, i: nat)
    requires !frame.IsEmpty() && i < |frame.rows|
    requires PnlColumn in frame.rows[i] && frame.rows[i][PnlColumn].Text?
    requires ParseAmount(frame.rows[i][PnlColumn].text).None?
    requires !HasSeparator(frame.rows[i][PnlColumn].text)
    ensures ShowJournal(frame) ==
            Screen(DisplayTrades(frame.rows[..i] + frame.rows[i + 1..]), StatsFailed)
  {
    var rows := frame.rows;
    BadPnlCancelsSummary(frame, i);
    BadPnlRowFails(rows[i]);
    assert rows == rows[..i] + [rows[i]] + rows[i + 1..];
    SkippedRowLeavesOthers(rows[..i], rows[i], rows[i + 1..]);
  }

  /** A value at or below zero makes a trade non-profitable. */
  lemma {:induction false} NonPositiveCounted(vs: seq<real>, i: nat)
    requires i < |vs| && vs[i] <= 0.0
    ensures CountNonPositive(vs) >= 1
    ensures CountProfitable(vs) < |vs|
    decreases |vs|
  {
    CountsPartition(vs);
    if i < |vs| - 1 {
      NonPositiveCounted(vs[..|vs| - 1], i);
    }
  }

  /** A trade with PnL zero is shown in the profit style, yet the summary
      counts it among the losing trades. */
  lemma ZeroPnlIsProfitRowButLosingTrade(frame: DataFrame, i: nat)
    requires !frame.IsEmpty() && i < |frame.rows|
    requires Summarise(frame).Summarised?
    requires HasDisplayCells(frame.rows[i]) && ColumnCell(frame.rows[i]) == Some(0.0)
    ensures RenderRow(frame.rows[i]).Some?
    ensures RenderRow(frame.rows[i]).value.style == Profit
    ensures Summarise(frame).stats.losing >= 1
    ensures Summarise(frame).stats.profitable < Summarise(frame).stats.total
  {
    var vs := ColumnValues(frame.rows).value;
    RowAndColumnAgree(frame.rows[i]);
    SummaryCounts(frame);
    NonPositiveCounted(vs, i);
  }
}

=== FILE: lists.dfy ===
/** The two ways the journal walks a table row by row: keep what succeeds
    (the display loop) or succeed only if everything does (the whole-column
    conversions of pandas). Both are stated once here, over an arbitrary
    per-element step. */
module Lists {
  import opened Options

  /** Keeps, in order, the results of `f` that are present. */
  function FilterMap<A, B>(f: A -> Option<B>, xs: seq<A>): (ys: seq<B>)
    ensures |ys| <= |xs|
  {
    if |xs| == 0 then []
    else
      var before := FilterMap(f, xs[..|xs| - 1]);
      match f(xs[|xs| - 1])
      case None => before
      case Some(y) => before + [y]
  }

  lemma FilterMapSnoc<A, B>(f: A -> Option<B>, xs: seq<A>, x: A)
    ensures FilterMap(f, xs + [x]) == FilterMap(f, xs) + (if f(x).Some? then [f(x).value] else [])
  {
    assert (xs + [x])[..|xs|] == xs;
  }

  lemma {:induction false} FilterMapConcat<A, B>(f: A -> Option<B>, a: seq<A>, b: seq<A>)
    ensures FilterMap(f, a + b) == FilterMap(f, a) + FilterMap(f, b)
    decreases |b|
  {
    if |b| == 0 {
      assert a + b == a;
    } else {
      var b' := b[..|b| - 1];
      var x := b[|b| - 1];
      assert a + b == (a + b') + [x];
      assert b == b' + [x];
      FilterMapSnoc(f, a + b', x);
      FilterMapSnoc(f, b', x);
      FilterMapConcat(f, a, b');
    }
  }

  /** `FilterMap` selects: `picked` lists, in increasing order, the positions
      whose results are kept, and every other position has no result. */
  lemma {:induction false} FilterMapSelects<A, B>(f: A -> Option<B>, xs: seq<A>) returns (picked: seq<nat>)
    ensures |picked| == |FilterMap(f, xs)|
    ensures forall j | 0 <= j < |picked| :: picked[j] < |xs|
    ensures forall j, k | 0 <= j < k < |picked| :: picked[j] < picked[k]
    ensures forall j | 0 <= j < |picked| :: f(xs[picked[j]]) == Some(FilterMap(f, xs)[j])
    ensures forall i | 0 <= i < |xs| && i !in picked :: f(xs[i]).None?
    decreases |xs|
  {
    if |xs| == 0 {
      picked := [];
    } else {
      var init := xs[..|xs| - 1];
      var last := |xs| - 1;
      assert xs == init + [xs[last]];
      FilterMapSnoc(f, init, xs[last]);
      var before := FilterMapSelects(f, init);
      var prev := FilterMap(f, init);
      var ys := FilterMap(f, xs);
      assert forall i | 0 <= i < last :: xs[i] == init[i];
      if f(xs[last]).Some? {
        picked := before + [last];
        assert ys == prev + [f(xs[last]).value];
        forall j | 0 <= j < |picked|
          ensures picked[j] < |xs| && f(xs[picked[j]]) == Some(ys[j])
        {
          if j < |before| {
            assert picked[j] == before[j];
          }
        }
        forall j, k | 0 <= j < k < |picked|
          ensures picked[j] < picked[k]
        {
          assert picked[j] == before[j];
          if k < |before| {
            assert picked[k] == before[k];
          }
        }
      } else {
        picked := before;
        assert ys == prev;
      }
      forall i | 0 <= i < |xs| && i !in picked
        ensures f(xs[i]).None?
      {
        if i < last {
          assert i !in before;
        }
      }
    }
  }

  /** Applies `f` to every element; `None` as soon as one of them fails. */
  function AllOrNothing<A, B>(f: A -> Option<B>, xs: seq<A>): (r: Option<seq<B>>)
    ensures r.Some? <==> forall i | 0 <= i < |xs| :: f(xs[i]).Some?
    ensures r.Some? ==> |r.value| == |xs|
    ensures r.Some? ==> forall i | 0 <= i < |xs| :: f(xs[i]) == Some(r.value[i])
  {
    if |xs| == 0 then Some([])
    else
      var init := xs[..|xs| - 1];
      assert forall i | 0 <= i < |init| :: init[i] == xs[i];
      match AllOrNothing(f, init)
      case None => None
      case Some(done) =>
        match f(xs[|xs| - 1])
        case None => None
        case Some(y) => Some(done + [y])
  }

  lemma AllOrNothingSnoc<A, B>(f: A -> Option<B>, xs: seq<A>, x: A)
    ensures AllOrNothing(f, xs + [x]) ==
            match (AllOrNothing(f, xs), f(x))
            case (Some(ys), Some(y)) => Some(ys + [y])
            case _ => None
  {
    assert (xs + [x])[..|xs|] == xs;
  }

  /** Success on every element is success with exactly those results. */
  lemma AllOrNothingPointwise<A, B>(f: A -> Option<B>, xs: seq<A>, ys: seq<B>)
    requires |xs| == |ys|
    requires forall i | 0 <= i < |xs| :: f(xs[i]) == Some(ys[i])
    ensures AllOrNothing(f, xs) == Some(ys)
  {
    var r := AllOrNothing(f, xs);
    assert r.Some?;
    assert |r.value| == |ys|;
    assert forall i | 0 <= i < |ys| :: r.value[i] == ys[i];
    assert r.value == ys;
  }

  /** `AllOrNothing` as a loop that stops at the first failure and reports
      its position. */
  method CollectAll<A, B>(f: A -> Option<B>, xs: seq<A>) returns (ys: seq<B>, failedAt: Option<nat>)
    ensures failedAt.None? <==> AllOrNothing(f, xs).Some?
    ensures failedAt.None? ==> AllOrNothing(f, xs) == Some(ys)
    ensures failedAt.Some? ==>
              && failedAt.value < |xs|
              && f(xs[failedAt.value]).None?
              && forall j | 0 <= j < failedAt.value :: f(xs[j]).Some?
  {
    ys := [];
    var i := 0;
    while i < |xs|
      invariant 0 <= i <= |xs|
      invariant AllOrNothing(f, xs[..i]) == Some(ys)
    {
      assert xs[..i + 1] == xs[..i] + [xs[i]];
      AllOrNothingSnoc(f, xs[..i], xs[i]);
      var y := f(xs[i]);
      if y.None? {
        assert forall j | 0 <= j < i :: xs[..i][j] == xs[j];
        return ys, Some(i);
      }
      ys := ys + [y.value];
      i := i + 1;
    }
    assert xs[..i] == xs;
    failedAt := None;
  }
}

=== FILE: loader.dfy ===
/** `TradingJournal.load_data` (pnl_gui.py:25-46): choose a reader by file
    extension, read, convert a `date` column, and turn every failure into a
    diagnostic plus an empty table. The readers and the date parser are
    parameters: the model sees only what they return. */
module Loader {
  import opened Options
  import opened Text
  import opened DataFrames
  import opened Lists

  datatype Format = Csv | Excel

  /** The reader chosen for an extension (as `os.path.splitext` returns it,
      dot included), compared after lower-casing. */
  function FormatOf(extension: string): Option<Format> {
    var e := Lower(extension);
    if e == ".csv" then Some(Csv)
    else if e == ".xlsx" || e == ".xls" then Some(Excel)
    else None
  }

  /** Extension matching ignores case. */
  lemma FormatOfIgnoresCase(a: string, b: string)
    requires |a| == |b|
    requires forall i | 0 <= i < |a| :: LowerChar(a[i]) == LowerChar(b[i])
    ensures FormatOf(a) == FormatOf(b)
  {
    assert Lower(a) == Lower(b);
  }

  /** The extensions the journal accepts, in any case, and two it refuses. */
  lemma CsvExtensions()
    ensures FormatOf(".csv") == Some(Csv) && FormatOf(".CSV") == Some(Csv)
  {
    assert Lower(".csv") == ".csv";
    assert Lower(".CSV") == ".csv";
  }

  lemma ExcelExtensions()
    ensures FormatOf(".xlsx") == Some(Excel) && FormatOf(".xls") == Some(Excel)
    ensures FormatOf(".XLS") == Some(Excel)
  {
    assert Lower(".xlsx") == ".xlsx";
    assert Lower(".xls") == ".xls";
    assert Lower(".XLS") == ".xls";
  }

  lemma RefusedExtensions()
    ensures FormatOf(".txt") == None && FormatOf("") == None
  {
    assert Lower(".txt")[1] == 't';
    assert |Lower("")| == 0;
  }

  /** What a reader (`pd.read_csv` / `pd.read_excel`) does with the path. */
  datatype ReadOutcome =
    | Read(frame: DataFrame)
    | Missing                    // FileNotFoundError
    | Unreadable(message: string) // any other exception, with its text

  /** The readers for this path, one per format. */
  type Readers = Format -> ReadOutcome

  /** `pd.to_datetime` applied to one text value. The program converts the
      whole column in one call; parsing each value on its own with the same
      parser is how pandas did it by default before 2.0, whereas 2.0 and later
      infer one format from the first value for the whole column. */
  type DateParser = string -> Option<Date>

  /** The causes that reach the generic `except Exception` branch. */
  datatype Failure =
    | UnsupportedFormat
    | ReaderFailed(message: string)
    | UnparseableDate

  /** What `load_data` prints, if anything. */
  datatype Diagnostic = Clean | FileNotFound | LoadError(failure: Failure)

  datatype Loaded = Loaded(data: DataFrame, diagnostic: Diagnostic)

  /** One date cell through `to_datetime`: text is parsed, dates pass through. */
  function ConvertCell(c: Cell, toDate: DateParser): (r: Option<Cell>)
    ensures r.Some? ==> r.value.Stamp?
    ensures c.Stamp? ==> r == Some(c)
    ensures c.Text? ==> (r.None? <==> toDate(c.text).None?)
    // A parsed text becomes the very date the parser produced.
    ensures c.Text? && r.Some? ==> r.value == Stamp(toDate(c.text).value)
  {
    match c
    case Stamp(_) => Some(c)
    case Text(t) =>
      match toDate(t)
      case None => None
      case Some(d) => Some(Stamp(d))
  }

  /** A row with its `date` cell converted; every other cell untouched. */
  function ConvertRow(row: Row, toDate: DateParser): (r: Option<Row>)
    ensures r.None? <==> DateColumn in row && ConvertCell(row[DateColumn], toDate).None?
    ensures r.Some? ==> r.value.Keys == row.Keys
    ensures r.Some? ==> forall k | k in row && k != DateColumn :: r.value[k] == row[k]
    ensures r.Some? && DateColumn in row ==> r.value[DateColumn].Stamp?
    // The new `date` cell is the converted old one.
    ensures r.Some? && DateColumn in row ==> Some(r.value[DateColumn]) == ConvertCell(row[DateColumn], toDate)
  {
    if DateColumn in row then
      match ConvertCell(row[DateColumn], toDate)
      case None => None
      case Some(c) => Some(row[DateColumn := c])
    else
      Some(row)
  }

  /** `data['date'] = pd.to_datetime(data['date'])`: all rows or nothing. */
  function ConvertDates(rows: seq<Row>, toDate: DateParser): (r: Option<seq<Row>>)
    ensures r.Some? <==> forall i | 0 <= i < |rows| :: ConvertRow(rows[i], toDate).Some?
    ensures r.Some? ==> |r.value| == |rows|
    ensures r.Some? ==> forall i | 0 <= i < |rows| :: ConvertRow(rows[i], toDate) == Some(r.value[i])
  {
    AllOrNothing(row => ConvertRow(row, toDate), rows)
  }

  /** `load_data`: the table the journal will show, and what was reported. */
  function Load(extension: string, readers: Readers, toDate: DateParser): (r: Loaded)
    // Every failure leaves the empty table behind.
    ensures r.diagnostic != Clean ==> r.data == NoFrame
    // An unsupported extension is refused without consulting any reader.
    ensures FormatOf(extension).None? ==> r == Loaded(NoFrame, LoadError(UnsupportedFormat))
    // A missing file is reported as such, and only then.
    ensures r.diagnostic == FileNotFound <==>
              FormatOf(extension).Some? && readers(FormatOf(extension).value) == Missing
    // A reader's own failure is passed on with its message.
    ensures FormatOf(extension).Some? && readers(FormatOf(extension).value).Unreadable? ==>
              r.diagnostic == LoadError(ReaderFailed(readers(FormatOf(extension).value).message))
    // Success exactly when the chosen reader succeeded and, if there is a
    // `date` column, every one of its cells converted.
    ensures r.diagnostic == Clean <==>
              FormatOf(extension).Some? && readers(FormatOf(extension).value).Read? &&
              var frame := readers(FormatOf(extension).value).frame;
              (DateColumn in frame.columns ==> ConvertDates(frame.rows, toDate).Some?)
    // On success the rows are the reader's rows, in order, none dropped; only
    // the `date` cells differ, and each holds its converted date.
    ensures r.diagnostic == Clean ==>
              var frame := readers(FormatOf(extension).value).frame;
              && r.data.columns == frame.columns
              && |r.data.rows| == |frame.rows|
              && (forall i | 0 <= i < |frame.rows| :: r.data.rows[i].Keys == frame.rows[i].Keys)
              && (forall i, k | 0 <= i < |frame.rows| && k in frame.rows[i] && k != DateColumn ::
                    r.data.rows[i][k] == frame.rows[i][k])
              && (DateColumn !in frame.columns ==> r.data == frame)
              && (DateColumn in frame.columns ==>
                    forall i | 0 <= i < |frame.rows| && DateColumn in frame.rows[i] ::
                      ConvertCell(frame.rows[i][DateColumn], toDate) == Some(r.data.rows[i][DateColumn]))
  {
    match FormatOf(extension)
    case None => Loaded(NoFrame, LoadError(UnsupportedFormat))
    case Some(format) =>
      match readers(format)
      case Missing => Loaded(NoFrame, FileNotFound)
      case Unreadable(message) => Loaded(NoFrame, LoadError(ReaderFailed(message)))
      case Read(frame) =>
        if DateColumn in frame.columns then
          match ConvertDates(frame.rows, toDate)
          case None => Loaded(NoFrame, LoadError(UnparseableDate))
          case Some(rows) => Loaded(DataFrame(frame.columns, rows), Clean)
        else
          Loaded(frame, Clean)
  }

  /** Loading keeps pandas' shape invariant: a well-formed table from the
      reader gives a well-formed table in the journal. */
  lemma LoadKeepsWellFormed(extension: string, readers: Readers, toDate: DateParser)
    requires forall f: Format :: readers(f).Read? ==> readers(f).frame.WellFormed()
    ensures Load(extension, readers, toDate).data.WellFormed()
  {
    var r := Load(extension, readers, toDate);
    if r.diagnostic == Clean {
      var frame := readers(FormatOf(extension).value).frame;
      assert frame.WellFormed();
      assert r.data.ColumnSet() == frame.ColumnSet();
    }
  }

  /** A single date that does not parse empties the whole table. */
  lemma OneBadDateEmptiesTable(extension: string, readers: Readers, toDate: DateParser, i: nat)
    requires FormatOf(extension).Some? && readers(FormatOf(extension).value).Read?
    requires var frame := readers(FormatOf(extension).value).frame;
             && DateColumn in frame.columns && i < |frame.rows|
             && DateColumn in frame.rows[i]
             && ConvertCell(frame.rows[i][DateColumn], toDate).None?
    ensures Load(extension, readers, toDate) == Loaded(NoFrame, LoadError(UnparseableDate))
  {
  }
}

=== FILE: options.dfy ===
/** The optional-value type used wherever the journal can fail softly:
    a parse that does not succeed, a cell that is not there. */
module Options {

  datatype Option<+T> = None | Some(value: T)
}

=== FILE: scenarios.dfy ===
/** Concrete inputs the journal is expected to handle, worked through the
    model: three PnL texts, the word "abc", and a three-trade journal. Each
    literal computation sits in a lemma of its own so that the verifier only
    ever evaluates one short string at a time. */
module Scenarios {
  import opened Options
  import opened Decimal
  import opened Currency
  import opened DataFrames
  import opened Display
  import opened Summary
  import opened Lists

  lemma NegativeLiteral()
    ensures Literal(true, "50", "").Valid()
    ensures Literal(true, "50", "").Spelling() == "-50"
    ensures Literal(true, "50", "").Value() == -50.0
  {
    assert "50"[..1] == "5";
  }

  /** "-$50" reads as -50. */
  lemma NegativeAmount()
    ensures ParseAmount("-$50") == Some(-50.0)
  {
    CleanNegative();
    NegativeLiteral();
    DecoratedSpelling("-$50", Literal(true, "50", ""));
  }

  /** "abc" does not read as a number. */
  lemma WordAmount()
    ensures ParseAmount("abc") == None
  {
    ForeignCharacterRejected("abc", 0);
  }

  lemma HundredLiteral()
    ensures Literal(false, "100", "").Valid()
    ensures Literal(false, "100", "").Spelling() == "100"
    ensures Literal(false, "100", "").Value() == 100.0
  {
    assert "100"[..2] == "10";
    assert "10"[..1] == "1";
  }

  lemma HundredAmount()
    ensures ParseAmount("$100") == Some(100.0)
  {
    CleanHundred();
    HundredLiteral();
    DecoratedSpelling("$100", Literal(false, "100", ""));
  }

  lemma ZeroLiteral()
    ensures Literal(false, "0", "").Valid()
    ensures Literal(false, "0", "").Spelling() == "0"
    ensures Literal(false, "0", "").Value() == 0.0
  {
  }

  lemma ZeroAmount()
    ensures ParseAmount("$0") == Some(0.0)
  {
    CleanZero();
    ZeroLiteral();
    DecoratedSpelling("$0", Literal(false, "0", ""));
  }

  /** The PnL column of the three-trade journal reads as 100, -50 and 0. */
  lemma ThreeTradeColumn(rows: seq<Row>)
    requires |rows| == 3
    requires forall i | 0 <= i < 3 :: PnlColumn in rows[i]
    requires rows[0][PnlColumn] == Text("$100")
    requires rows[1][PnlColumn] == Text("-$50")
    requires rows[2][PnlColumn] == Text("$0")
    ensures ColumnValues(rows) == Some([100.0, -50.0, 0.0])
  {
    var r0, r1, r2 := rows[0], rows[1], rows[2];
    assert rows == [r0, r1, r2];
    HundredCell(r0);
    NegativeCell(r1);
    ZeroCell(r2);
    AllOfThree(ColumnCell, r0, r1, r2, 100.0, -50.0, 0.0);
  }

  /** Three successes make a success holding the three values in order. */
  lemma AllOfThree<A, B>(f: A -> Option<B>, x0: A, x1: A, x2: A, y0: B, y1: B, y2: B)
    requires f(x0) == Some(y0) && f(x1) == Some(y1) && f(x2) == Some(y2)
    ensures AllOrNothing(f, [x0, x1, x2]) == Some([y0, y1, y2])
  {
    var xs, ys := [x0, x1, x2], [y0, y1, y2];
    assert forall i | 0 <= i < 3 :: f(xs[i]) == Some(ys[i]);
    AllOrNothingPointwise(f, xs, ys);
  }

  lemma HundredCell(row: Row)
    requires PnlColumn in row && row[PnlColumn] == Text("$100")
    ensures ColumnCell(row) == Some(100.0)
  {
    HundredAmount();
  }

  lemma NegativeCell(row: Row)
    requires PnlColumn in row && row[PnlColumn] == Text("-$50")
    ensures ColumnCell(row) == Some(-50.0)
  {
    NegativeAmount();
  }

  lemma ZeroCell(row: Row)
    requires PnlColumn in row && row[PnlColumn] == Text("$0")
    ensures ColumnCell(row) == Some(0.0)
  {
    ZeroAmount();
  }

  /** The statistics of the values 100, -50 and 0. */
  lemma ThreeTradeStats(vs: seq<real>)
    requires |vs| == 3 && vs[0] == 100.0 && vs[1] == -50.0 && vs[2] == 0.0
    ensures StatsOf(vs) == Stats(3, 1, 2, Some(Rates(100.0 / 3.0, Loss, 50.0, Profit)))
  {
    var two := vs[..2];
    var one := two[..1];
    assert one[..0] == [];
    assert CountProfitable(one) == 1 && Sum(one) == 100.0;
    assert CountProfitable(two) == 1 && Sum(two) == 50.0;
    assert CountProfitable(vs) == 1 && Sum(vs) == 50.0;
    var s := Statistics(3, 1, 50.0);
    assert s.rates.value.winRate == (1.0 / 3.0) * 100.0;
  }

  /** A journal of three trades with PnL "$100", "-$50" and "$0": three
      trades, one profitable (zero is not), two losing, a win rate of one in
      three shown as unfavourable, and a total of 50 shown as favourable. */
  lemma ThreeTradeJournal(frame: DataFrame)
    requires |frame.columns| > 0 && |frame.rows| == 3
    requires forall i | 0 <= i < 3 :: PnlColumn in frame.rows[i]
    requires frame.rows[0][PnlColumn] == Text("$100")
    requires frame.rows[1][PnlColumn] == Text("-$50")
    requires frame.rows[2][PnlColumn] == Text("$0")
    ensures Summarise(frame) ==
            Summarised(Stats(3, 1, 2, Some(Rates(100.0 / 3.0, Loss, 50.0, Profit))))
  {
    ThreeTradeColumn(frame.rows);
    var vs := [100.0, -50.0, 0.0];
    ThreeTradeStats(vs);
  }
}

=== FILE: summary.dfy ===
/** `TradingJournal.display_summary` (pnl_gui.py:102-120): the PnL column is
    cleaned and converted as a whole, so one bad cell cancels every
    statistic; otherwise the counts, the win rate and the total follow. */
module Summary {
  import opened Options
  import opened Currency
  import opened DataFrames
  import opened Display
  import opened Lists

  /** One PnL cell as the column path reads it: the `.str` accessor needs text
      and the column must exist. */
  function ColumnCell(row: Row): (r: Option<real>)
    ensures r.Some? ==> PnlColumn in row && row[PnlColumn].Text?
    ensures PnlColumn in row && row[PnlColumn].Text? ==> r == ParseAmount(row[PnlColumn].text)
  {
    match Lookup(row, PnlColumn)
    case Some(Text(t)) => ParseAmount(t)
    case _ => None
  }

  /** `data['PnL'].str.replace('$', '').str.replace(',', '').astype(float)`:
      every cell converts, or nothing does. */
  function ColumnValues(rows: seq<Row>): (r: Option<seq<real>>)
    ensures r.Some? <==> forall i | 0 <= i < |rows| :: ColumnCell(rows[i]).Some?
    ensures r.Some? ==> |r.value| == |rows|
    ensures r.Some? ==> forall i | 0 <= i < |rows| :: ColumnCell(rows[i]) == Some(r.value[i])
  {
    AllOrNothing(ColumnCell, rows)
  }

  /** `sum(pnl_values > 0)`: how many values are strictly positive. */
  function CountProfitable(vs: seq<real>): (n: nat)
    ensures n <= |vs|
  {
    if |vs| == 0 then 0
    else CountProfitable(vs[..|vs| - 1]) + (if vs[|vs| - 1] > 0.0 then 1 else 0)
  }

  /** How many values are zero or negative. */
  function CountNonPositive(vs: seq<real>): (n: nat)
    ensures n <= |vs|
  {
    if |vs| == 0 then 0
    else CountNonPositive(vs[..|vs| - 1]) + (if vs[|vs| - 1] <= 0.0 then 1 else 0)
  }

  /** Every value is either profitable or not. */
  lemma {:induction false} CountsPartition(vs: seq<real>)
    ensures CountProfitable(vs) + CountNonPositive(vs) == |vs|
    decreases |vs|
  {
    if |vs| > 0 {
      CountsPartition(vs[..|vs| - 1]);
    }
  }

  /** `pnl_values.sum()`, exactly. */
  function Sum(vs: seq<real>): real {
    if |vs| == 0 then 0.0 else Sum(vs[..|vs| - 1]) + vs[|vs| - 1]
  }

  /** `rate` is `part` out of `whole`, in percent. */
  predicate IsPercentage(rate: real, part: nat, whole: nat) {
    rate * (whole as real) == 100.0 * (part as real)
  }

  /** The two coloured figures, printed only when there are trades. */
  datatype Rates = Rates(winRate: real, winStyle: Style, totalPnl: real, pnlStyle: Style)

  datatype Stats = Stats(total: nat, profitable: nat, losing: nat, rates: Option<Rates>) {

    /** What the printed figures promise one another: the counts add up,
        the rates are there exactly when there are trades, the win rate is the
        profitable share in percent (so within 0..100) and is favourable
        exactly when at least half the trades win, and the total is favourable
        exactly when it is not negative. */
    predicate Consistent() {
      && profitable + losing == total
      && (rates.Some? <==> total > 0)
      && (rates.Some? ==>
            && 0.0 <= rates.value.winRate <= 100.0
            && IsPercentage(rates.value.winRate, profitable, total)
            && (rates.value.winStyle == Profit <==> 2 * profitable >= total)
            && (rates.value.pnlStyle == Profit <==> rates.value.totalPnl >= 0.0))
    }
  }

  /** What `display_summary` prints: nothing, only the error line, or the
      statistics (the header comes after the conversion, so an error prints no
      header). */
  datatype SummaryOutcome = NoSummary | StatsFailed | Summarised(stats: Stats)

  /** Win-rate colouring (pnl_gui.py:117). */
  function WinStyle(winRate: real): (s: Style)
    ensures s == Profit <==> winRate >= 50.0
  {
    if winRate >= 50.0 then Profit else Loss
  }

  /** The win rate reaches 50% exactly when at least half the trades are
      profitable, and it never leaves 0..100. */
  lemma WinRateThreshold(profitable: nat, total: nat)
    requires 0 < total && profitable <= total
    ensures 0.0 <= (profitable as real / total as real) * 100.0 <= 100.0
    ensures (profitable as real / total as real) * 100.0 >= 50.0 <==> 2 * profitable >= total
  {
    var p, t := profitable as real, total as real;
    var q := p / t;
    assert q * t == p;
    RateFacts(p, t, q);
  }

  /** The same facts about a share `q` of `t` that amounts to `p`, stated
      without a division. */
  lemma RateFacts(p: real, t: real, q: real)
    requires 0.0 < t && 0.0 <= p <= t && q * t == p
    ensures 0.0 <= q * 100.0 <= 100.0
    ensures q * 100.0 >= 50.0 <==> 2.0 * p >= t
  {
    assert 0.0 <= q by {
      ScaleCompare(0.0, q, t);
    }
    assert q <= 1.0 by {
      ScaleCompare(q, 1.0, t);
    }
    assert 0.5 <= q <==> 0.5 * t <= p by {
      ScaleCompare(0.5, q, t);
    }
  }

  /** Multiplying by a positive number keeps the order, both ways. */
  lemma ScaleCompare(a: real, b: real, t: real)
    requires t > 0.0
    ensures a <= b <==> a * t <= b * t
  {
    if a <= b {
      assert b * t - a * t == (b - a) * t;
    } else {
      ProductPositive(a - b, t);
      assert a * t - b * t == (a - b) * t;
    }
  }

  lemma ProductPositive(a: real, b: real)
    requires a > 0.0 && b > 0.0
    ensures a * b > 0.0
  {
  }

  function Summarise(frame: DataFrame): (r: SummaryOutcome)
    // No data, no summary.
    ensures r.NoSummary? <==> frame.IsEmpty()
    // One unreadable PnL cell cancels all statistics.
    ensures r.StatsFailed? <==>
              !frame.IsEmpty() && exists i | 0 <= i < |frame.rows| :: ColumnCell(frame.rows[i]).None?
    // Otherwise every statistic is there, and they are consistent.
    ensures r.Summarised? ==>
              r.stats.total == |frame.rows| && r.stats.rates.Some? && r.stats.Consistent()
  {
    if frame.IsEmpty() then NoSummary
    else
      match ColumnValues(frame.rows)
      case None => StatsFailed
      case Some(vs) => Summarised(StatsOf(vs))
  }

  /** The statistics of a fully converted column, one value per trade. */
  function StatsOf(vs: seq<real>): (s: Stats)
    ensures s.total == |vs| && s.profitable == CountProfitable(vs)
    ensures s.losing == CountNonPositive(vs)
    ensures s.rates.Some? <==> |vs| > 0
    ensures s.rates.Some? ==> s.rates.value.totalPnl == Sum(vs)
    ensures s.Consistent()
  {
    CountsPartition(vs);
    Statistics(|vs|, CountProfitable(vs), Sum(vs))
  }

  /** The win rate is the profitable share of the trades, in percent. */
  lemma WinRateValue(profitable: nat, total: nat)
    requires 0 < total
    ensures (profitable as real / total as real) * 100.0 * (total as real) == 100.0 * (profitable as real)
  {
    var p, t := profitable as real, total as real;
    var q := p / t;
    assert q * t == p;
    assert q * 100.0 * t == 100.0 * (q * t);
  }

  /** The printed figures from the trade count, the profitable count and the
      PnL total (pnl_gui.py:106-118). The rates exist exactly when there are
      trades, so the division is never by zero. */
  function Statistics(total: nat, profitable: nat, totalPnl: real): (s: Stats)
    requires profitable <= total
    ensures s.total == total && s.profitable == profitable
    ensures s.rates.Some? ==> s.rates.value.totalPnl == totalPnl
    ensures s.Consistent()
  {
    var rates :=
      if total > 0 then
        var winRate := (profitable as real / total as real) * 100.0;
        WinRateThreshold(profitable, total);
        WinRateValue(profitable, total);
        Some(Rates(winRate, WinStyle(winRate), totalPnl, StyleOf(totalPnl)))
      else None;
    Stats(total, profitable, total - profitable, rates)
  }

  /** The counts in a summary are the counts of the parsed column: profitable
      trades are those strictly above zero, and every other trade — a zero
      PnL included — is a losing one. */
  lemma SummaryCounts(frame: DataFrame)
    requires Summarise(frame).Summarised?
    ensures ColumnValues(frame.rows).Some?
    ensures Summarise(frame).stats.profitable == CountProfitable(ColumnValues(frame.rows).value)
    ensures Summarise(frame).stats.losing == CountNonPositive(ColumnValues(frame.rows).value)
    ensures Summarise(frame).stats.rates.value.totalPnl == Sum(ColumnValues(frame.rows).value)
    ensures IsPercentage(Summarise(frame).stats.rates.value.winRate,
                         CountProfitable(ColumnValues(frame.rows).value), |frame.rows|)
  {
    var vs := ColumnValues(frame.rows).value;
    var s := Summarise(frame).stats;
    SummaryIsStatsOf(frame);
    WinRateOfCounts(s, |frame.rows|, CountProfitable(vs));
  }

  /** A summary holds the statistics of the converted column. */
  lemma SummaryIsStatsOf(frame: DataFrame)
    requires Summarise(frame).Summarised?
    ensures ColumnValues(frame.rows).Some?
    ensures Summarise(frame).stats == StatsOf(ColumnValues(frame.rows).value)
  {
  }

  /** The win rate of consistent statistics, in terms of the counts. */
  lemma WinRateOfCounts(s: Stats, total: nat, profitable: nat)
    requires s.Consistent() && s.rates.Some? && s.total == total && s.profitable == profitable
    ensures IsPercentage(s.rates.value.winRate, profitable, total)
  {
  }

  /** `sum(pnl_values > 0)` and `pnl_values.sum()` in one pass. */
  method CountAndSum(values: seq<real>) returns (profitable: nat, sum: real)
    ensures profitable == CountProfitable(values)
    ensures sum == Sum(values)
  {
    profitable, sum := 0, 0.0;
    var i := 0;
    while i < |values|
      invariant 0 <= i <= |values|
      invariant profitable == CountProfitable(values[..i])
      invariant sum == Sum(values[..i])
    {
      assert values[..i + 1][..i] == values[..i];
      if values[i] > 0.0 {
        profitable := profitable + 1;
      }
      sum := sum + values[i];
      i := i + 1;
    }
    assert values[..i] == values;
  }

  /** `display_summary` in loop form; it agrees with `Summarise` and also
      names the first PnL cell that stopped the statistics. */
  method SummariseLoop(frame: DataFrame) returns (outcome: SummaryOutcome, failedAt: Option<nat>)
    ensures outcome == Summarise(frame)
    ensures failedAt.Some? <==> outcome.StatsFailed?
    ensures failedAt.Some? ==>
              && failedAt.value < |frame.rows|
              && ColumnCell(frame.rows[failedAt.value]).None?
              && forall j | 0 <= j < failedAt.value :: ColumnCell(frame.rows[j]).Some?
  {
    if frame.IsEmpty() {
      return NoSummary, None;
    }
    var values;
    values, failedAt := CollectAll(ColumnCell, frame.rows);
    if failedAt.Some? {
      return StatsFailed, failedAt;
    }
    var profitable, sum := CountAndSum(values);
    outcome := Summarised(Statistics(|values|, profitable, sum));
  }
}

=== FILE: text.dfy ===
/** Character-level helpers shared by the loader and the PnL parser:
    ASCII whitespace trimming (Python's `str.strip()`) and ASCII
    lower-casing (`str.lower()` on a file extension). */
module Text {

  /** The four ASCII information separators (file, group, record and unit
      separator). `str.isspace()` counts them as whitespace; `float()` does
      not. */
  predicate IsSeparator(c: char) {
    '\U{1C}' <= c <= '\U{1F}'
  }

  /** The ASCII characters `str.isspace()` holds for, which `str.strip()`
      removes: space, tab, line feed, vertical tab, form feed, carriage return
      and the four separators. */
  predicate IsSpace(c: char) {
    c == ' ' || c == '\t' || c == '\n' || c == '\r' || c == '\U{0B}' || c == '\U{0C}' || IsSeparator(c)
  }

  /** Some character of `s` is an information separator. */
  predicate HasSeparator(s: string) {
    exists i | 0 <= i < |s| :: IsSeparator(s[i])
  }

  predicate AllSpace(s: string) {
    forall i | 0 <= i < |s| :: IsSpace(s[i])
  }

  /** The first position at or after `i` that does not hold whitespace
      (`|s|` when there is none). */
  function SkipSpace(s: string, i: nat): (j: nat)
    requires i <= |s|
    ensures i <= j <= |s|
    ensures forall k | i <= k < j :: IsSpace(s[k])
    ensures j < |s| ==> !IsSpace(s[j])
    decreases |s| - i
  {
    if i < |s| && IsSpace(s[i]) then SkipSpace(s, i + 1) else i
  }

  /** The position just after the last character before `j` that is not
      whitespace (0 when there is none). */
  function SkipSpaceBack(s: string, j: nat): (i: nat)
    requires j <= |s|
    ensures i <= j
    ensures forall k | i <= k < j :: IsSpace(s[k])
    ensures 0 < i ==> !IsSpace(s[i - 1])
  {
    if 0 < j && IsSpace(s[j - 1]) then SkipSpaceBack(s, j - 1) else j
  }

  /** The number of whitespace characters `s` starts with. */
  function LeadingSpace(s: string): (n: nat)
    ensures n <= |s|
    ensures forall i | 0 <= i < n :: IsSpace(s[i])
    ensures n < |s| ==> !IsSpace(s[n])
  {
    SkipSpace(s, 0)
  }

  /** The number of whitespace characters `s` ends with. */
  function TrailingSpace(s: string): (n: nat)
    ensures n <= |s|
    ensures forall i | |s| - n <= i < |s| :: IsSpace(s[i])
    ensures n < |s| ==> !IsSpace(s[|s| - n - 1])
  {
    |s| - SkipSpaceBack(s, |s|)
  }

  /** `str.strip()`: what lies between the leading and the trailing
      whitespace. The result has no whitespace at either end. */
  function Trim(s: string): (r: string)
    ensures |r| <= |s|
    ensures r == [] || (!IsSpace(r[0]) && !IsSpace(r[|r| - 1]))
  {
    var lead := LeadingSpace(s);
    if lead == |s| then []
    else
      var trail := TrailingSpace(s);
      assert lead < |s| - trail;
      s[lead..|s| - trail]
  }

  /** A count of leading whitespace is the count when it is followed by the
      end or by a non-space. */
  lemma LeadingSpaceIs(s: string, n: nat)
    requires n <= |s| && forall i | 0 <= i < n :: IsSpace(s[i])
    requires n < |s| ==> !IsSpace(s[n])
    ensures LeadingSpace(s) == n
  {
  }

  /** The same for trailing whitespace. */
  lemma TrailingSpaceIs(s: string, n: nat)
    requires n <= |s| && forall i | |s| - n <= i < |s| :: IsSpace(s[i])
    requires n < |s| ==> !IsSpace(s[|s| - n - 1])
    ensures TrailingSpace(s) == n
  {
  }

  /** `Trim(s)` sits at position `k` of `s`, with only whitespace before and
      after it. */
  lemma TrimPositions(s: string) returns (k: nat)
    ensures k + |Trim(s)| <= |s|
    ensures forall i | 0 <= i < k :: IsSpace(s[i])
    ensures forall i | k + |Trim(s)| <= i < |s| :: IsSpace(s[i])
    ensures forall i | 0 <= i < |Trim(s)| :: Trim(s)[i] == s[k + i]
  {
    k := LeadingSpace(s);
  }

  /** `Trim` keeps a piece of the text, so it brings in no separator. */
  lemma TrimNoSeparator(s: string)
    requires !HasSeparator(s)
    ensures !HasSeparator(Trim(s))
  {
    var k := TrimPositions(s);
    var t := Trim(s);
    forall j | 0 <= j < |t|
      ensures !IsSeparator(t[j])
    {
      assert t[j] == s[k + j];
    }
  }

  /** The same, as a split of `s` into whitespace, `Trim(s)`, whitespace. */
  lemma TrimSplits(s: string) returns (k: nat)
    ensures k + |Trim(s)| <= |s|
    ensures s == s[..k] + Trim(s) + s[k + |Trim(s)|..]
    ensures AllSpace(s[..k]) && AllSpace(s[k + |Trim(s)|..])
  {
    k := TrimPositions(s);
    var t := Trim(s);
    var j := k + |t|;
    assert s[k..j] == t by {
      forall i | 0 <= i < |t|
        ensures s[k..j][i] == t[i]
      {
      }
    }
    SliceJoin(s, k, j);
    SpaceAround(s, k, j);
  }

  lemma SliceJoin(s: string, k: nat, j: nat)
    requires k <= j <= |s|
    ensures s == s[..k] + s[k..j] + s[j..]
  {
  }

  lemma SpaceAround(s: string, k: nat, j: nat)
    requires k <= j <= |s|
    requires forall i | 0 <= i < k :: IsSpace(s[i])
    requires forall i | j <= i < |s| :: IsSpace(s[i])
    ensures AllSpace(s[..k]) && AllSpace(s[j..])
  {
    assert forall i | 0 <= i < k :: s[..k][i] == s[i];
    assert forall i | 0 <= i < |s| - j :: s[j..][i] == s[j + i];
  }

  /** Only whitespace is lost by trimming. */
  lemma NonSpaceSurvivesTrim(s: string, c: char)
    requires c in s && !IsSpace(c)
    ensures c in Trim(s)
  {
    var k := TrimPositions(s);
    var t := Trim(s);
    var j :| 0 <= j < |s| && s[j] == c;
    assert k <= j < k + |t|;
    assert t[j - k] == c;
  }

  /** Surrounding whitespace makes no difference to `Trim`. */
  lemma TrimIgnoresPadding(a: string, x: string, b: string)
    requires AllSpace(a) && AllSpace(b)
    ensures Trim(a + x + b) == Trim(x)
  {
    assert a + x + b == a + (x + b);
    TrimIgnoresLeadingPad(a, x + b);
    TrimIgnoresTrailingPad(x, b);
  }

  lemma TrimIgnoresLeadingPad(a: string, y: string)
    requires AllSpace(a)
    ensures Trim(a + y) == Trim(y)
  {
    var s := a + y;
    assert forall i | 0 <= i < |a| :: IsSpace(s[i]);
    assert forall i | |a| <= i < |s| :: s[i] == y[i - |a|];
    TrimAfterSpace(s, y, |a|);
  }

  lemma TrimIgnoresTrailingPad(y: string, b: string)
    requires AllSpace(b)
    ensures Trim(y + b) == Trim(y)
  {
    var s := y + b;
    assert forall i | 0 <= i < |y| :: s[i] == y[i];
    assert forall i | |y| <= i < |s| :: IsSpace(s[i]);
    TrimBeforeSpace(s, y);
  }

  /** `s` is `n` whitespace characters followed by `y`. */
  lemma TrimAfterSpace(s: string, y: string, n: nat)
    requires n + |y| == |s|
    requires forall i | 0 <= i < n :: IsSpace(s[i])
    requires forall i | n <= i < |s| :: s[i] == y[i - n]
    ensures Trim(s) == Trim(y)
  {
    if LeadingSpace(y) == |y| {
      LeadingSpaceIs(s, |s|);
    } else {
      var ly, ty := LeadingSpace(y), TrailingSpace(y);
      assert ty < |y| by {
        assert !IsSpace(y[ly]);
      }
      LeadingSpaceIs(s, n + ly);
      TrailingSpaceIs(s, ty);
      TrimFromCounts(s, y);
    }
  }

  /** `s` is `y` followed by whitespace. */
  lemma TrimBeforeSpace(s: string, y: string)
    requires |y| <= |s|
    requires forall i | 0 <= i < |y| :: s[i] == y[i]
    requires forall i | |y| <= i < |s| :: IsSpace(s[i])
    ensures Trim(s) == Trim(y)
  {
    if LeadingSpace(y) == |y| {
      LeadingSpaceIs(s, |s|);
    } else {
      var ly, ty := LeadingSpace(y), TrailingSpace(y);
      assert ty < |y| by {
        assert !IsSpace(y[ly]);
      }
      LeadingSpaceIs(s, ly);
      TrailingSpaceIs(s, ty + |s| - |y|);
      TrimFromCounts(s, y);
    }
  }

  /** Two strings whose non-whitespace middles agree trim alike. */
  lemma TrimFromCounts(s: string, y: string)
    requires LeadingSpace(s) < |s| && LeadingSpace(y) < |y|
    requires |s| - LeadingSpace(s) - TrailingSpace(s) == |y| - LeadingSpace(y) - TrailingSpace(y)
    requires forall i | LeadingSpace(s) <= i < |s| - TrailingSpace(s) ::
               s[i] == y[i - LeadingSpace(s) + LeadingSpace(y)]
    ensures Trim(s) == Trim(y)
  {
    TrimIsMiddle(s);
    TrimIsMiddle(y);
    SameStretch(s, LeadingSpace(s), |s| - TrailingSpace(s), y, LeadingSpace(y), |y| - TrailingSpace(y));
  }

  /** A text that is not all whitespace trims to what lies between its
      leading and trailing whitespace. */
  lemma TrimIsMiddle(s: string)
    requires LeadingSpace(s) < |s|
    ensures LeadingSpace(s) <= |s| - TrailingSpace(s)
    ensures Trim(s) == s[LeadingSpace(s)..|s| - TrailingSpace(s)]
  {
  }

  /** Two stretches that agree position by position are equal. */
  lemma SameStretch(s: string, from: nat, to: nat, x: string, lo: nat, hi: nat)
    requires from <= to <= |s| && lo <= hi <= |x| && to - from == hi - lo
    requires forall i | from <= i < to :: s[i] == x[i - from + lo]
    ensures s[from..to] == x[lo..hi]
  {
    var r, q := s[from..to], x[lo..hi];
    forall i | 0 <= i < |q|
      ensures r[i] == q[i]
    {
      assert r[i] == s[from + i];
      assert q[i] == x[from + i - from + lo];
    }
  }

  /** A string with no whitespace at either end is its own trim. */
  lemma TrimKeepsTrimmed(s: string)
    requires s == [] || (!IsSpace(s[0]) && !IsSpace(s[|s| - 1]))
    ensures Trim(s) == s
  {
    if s != [] {
      LeadingSpaceIs(s, 0);
      TrailingSpaceIs(s, 0);
      assert s[0..|s|] == s;
    }
  }

  predicate IsUpper(c: char) {
    'A' <= c <= 'Z'
  }

  /** ASCII lower-casing of one character: no upper-case letter is left, a
      letter stays the same letter, and anything else is kept. */
  function LowerChar(c: char): (d: char)
    ensures !IsUpper(d)
    ensures !IsUpper(c) ==> d == c
    ensures IsUpper(c) ==> 'a' <= d <= 'z' && d as int - 'a' as int == c as int - 'A' as int
  {
    if IsUpper(c) then (c as int + 32) as char else c
  }

  /** `str.lower()` restricted to ASCII: the result has the same length, no
      upper-case letter, every other character where it was, and each
      upper-case letter replaced by its lower-case partner. */
  function Lower(s: string): (r: string)
    ensures |r| == |s|
    ensures forall i | 0 <= i < |r| :: !IsUpper(r[i])
    ensures forall i | 0 <= i < |s| && !IsUpper(s[i]) :: r[i] == s[i]
    ensures forall i | 0 <= i < |s| && IsUpper(s[i]) :: r[i] as int - 'a' as int == s[i] as int - 'A' as int
  {
    seq(|s|, i requires 0 <= i < |s| => LowerChar(s[i]))
  }

  /** Lower-casing twice is lower-casing once. */
  lemma LowerIdempotent(s: string)
    ensures Lower(Lower(s)) == Lower(s)
  {
  }
}
